=== FILE: README.md ===
# Route planner core, modelled in Dafny

The route planner finds restaurants (points of interest) near an address. It
routes to them over a street graph with five shortest-path algorithms. It
compares how fast the algorithms are, and it draws the routes on a map. This
project models the logic of the planner. It leaves out the maps, the GUI and
the network access.

- **The hand-written bidirectional A\*** (`RouteCalculator.bidirectional_a_star`).
  - Each side keeps a frontier of `(priority, cost, node)` entries, with Python's tuple order.
  - Each side keeps a visited-cost map and a parent map.
  - The search keeps the best meeting point seen so far.
  - It stops once the best cost is no more than the sum of the two queue heads' priorities, or once a queue is empty.
  - It rebuilds the path from the forward parent chain plus the backward parent chain. The backward chain starts at the meeting node's backward parent.
- **The benchmark loop** (`calculate_routes`).
  - It runs each algorithm to each destination.
  - It stores the successful routes and their times under the algorithm's name.
  - It reports each algorithm's mean time.
- **The choice of destinations** (`select_closest_destinations`).
  - It drops unreachable destinations and sorts the rest stably by path length.
  - It keeps as many as the planner asks for.
  - It returns aligned node, name and distance lists. It also stores the coordinates of each kept node.
- **The plotting decisions.**
  - The dash pattern of a line style.
  - The colour and style of each algorithm's layer, including the default preferences and the fixed colour table of `tcc_poo.py` and `tcc_poo_Interface_grafica.py`.
  - Which stored routes become lines.
  - How many routes each planner draws.
  - The unique file name for the saved map.
- **The pgRouting query builder** and the per-destination loop of the web service (`build_query`, `calculate_route`).

The single-file planners (`tcc_poo.py`, `tcc_poo_Interface_grafica.py`,
`OLD/tcc_poo.py`) repeat the search and the benchmark loop of
`route_planner/route_calculator.py` closely. The model follows the
package version and covers the scripts' variants where they differ:
- how many destinations are kept (`Ranking.CountRule`);
- the fixed colour table of `tcc_poo.py` and `tcc_poo_Interface_grafica.py` (`Plotting.ColorFor`); `OLD/tcc_poo.py` instead paints from its preferences with a dash pattern, as the package plotter does (`Plotting.PreferencePaint`);
- the two plot limits (`Plotting.RoutesLimit`, `Plotting.PlotLimit`).

Modules, one per file:

| file | module | what it holds |
|---|---|---|
| wrappers.dfy | `Wrappers` | `Option`, `Result` |
| collections.dfy | `Collections` | Python slicing `s[:n]`; counting; small sequence facts |
| decimal.dfy | `Decimal` | `str(int)`, `f"{i:02d}"`, and their parsers |
| graph.dfy | `Graph` | directed graph, successors/predecessors, edge lengths (default 1), paths |
| pqueue.dfy | `PriorityQueue` | `heapq` as a sorted sequence of entries |
| frontier.dfy | `Frontiers` | one side of the search: queue, costs, parents; edge relaxation; parent walks |
| parent_order.dfy | `ParentOrder` | a ranking of reached nodes under which every parent precedes its child |
| search.dfy | `BidirectionalSearch` | the search loop, path reconstruction, and its results |
| search_examples.dfy | `SearchExamples` | a three-node graph on which the stop rule returns a longer path |
| benchmark.dfy | `Benchmark` | dispatch by name, the loop over algorithms and destinations, mean times |
| ranking.dfy | `Ranking` | reachable destinations, stable sort, count rules, the selection |
| plotting.dfy | `Plotting` | dash patterns, preferences, drawn routes, plot limits, unique file names |
| pgrouting.dfy | `PgRouting` | the SQL text for pgRouting, read back; the service's loop over destinations |

The parent walks cannot run forever: the search never records a parent
cycle. Each parent link is stamped with the time its cost last improved, and
this gives an order that every link respects (`ParentOrder`). The model still
carries a walk bound and a `ParentCycle` error, and `BidirectionalAStar`
never returns it.

A queue is *keyed* (`Frontiers.Keyed`) when every entry's priority is its
cost plus the heuristic to the side's goal, and no entry is cheaper than its
node's recorded cost. Relaxation, expansion, rounds and the loop keep both
queues keyed. `Frontiers.RelaxedFrom` states what a relaxation may do to a
side: add queue entries for neighbours at the current cost plus their step,
and give a lowered cost the current node as parent.

A side is *explored* (`Frontiers.Explored`) when every node it has reached
is still queued or has all its neighbours reached. Both sides stay explored,
and while no meeting node is known the target stays queued forward once
reached there, and the source backward. So a search that stops without a
meeting node has emptied a queue whose reached set is closed under its
links, holds its own root and not the other end: `NoPath` is reported only
when no route exists (`BidirectionalSearch.NoMeetingNoRoute`).

## Model

| member | source | states |
|---|---|---|
| Graph.Successors | route_planner/route_calculator.py:115 | a node is listed exactly when an edge leads to it from the expanded node, and no node is listed twice |
| Graph.Predecessors | route_planner/route_calculator.py:133 | a node is listed exactly when an edge leads from it to the expanded node, and no node is listed twice |
| Graph.HeadsInFirstOrder | route_planner/route_calculator.py:115 | successors are listed in the order their first edge from the expanded node was added |
| Graph.TailsInFirstOrder | route_planner/route_calculator.py:133 | predecessors are listed in the order their first edge into the expanded node was added |
| Graph.RepeatedEdgeListedOnce | route_planner/route_calculator.py:115-133 | adding `0 -> 1` twice lists 1 once among the successors of 0 and 0 once among the predecessors of 1 |
| Graph.EdgeData | route_planner/route_calculator.py:116 | no data exactly when no edge `u -> v` was added; otherwise the one record the directed graph keeps for the pair |
| Graph.EdgeDataLength | route_planner/route_calculator.py:116-117 | the pair's record has a length exactly when some added `u -> v` edge carried one, and that length is one of theirs |
| Graph.Length | route_planner/route_calculator.py:116-117 | a step costs the length recorded for the pair `u -> v`, or 1 when it has none or there is no edge; a cost other than 1 is the length of some `u -> v` edge |
| Graph.EdgeDataIsLast | route_planner/route_calculator.py:116 | the record of `u -> v` holds the length of the last `u -> v` edge added with a length: later lengths replace earlier ones, and additions without a length keep it |
| Graph.LengthOfLastEdge | route_planner/route_calculator.py:116-117 | the step `u -> v` costs the length of the last `u -> v` edge added with a length |
| Graph.LaterLengthWins | route_planner/route_calculator.py:116-117 | adding `0 -> 1` without a length and then with length 5, or in the other order, both make the step cost 5 |
| PriorityQueue.Push | route_planner/route_calculator.py:122 | pushing keeps the queue in `(priority, cost, node)` order and adds exactly the one entry |
| PriorityQueue.Peek | route_planner/route_calculator.py:102-103 | the head is in the queue and no entry precedes it |
| Frontiers.Neighbors | route_planner/route_calculator.py:115 | the nodes expanded next are exactly those linked to the current one in the side's direction, each once |
| Frontiers.Relax | route_planner/route_calculator.py:116-123 | the side stays well formed; costs are never forgotten and only go down; only the neighbour joins or changes, and its cost is at most the current cost plus the step; unless it now costs exactly that, the side is unchanged |
| Frontiers.RelaxAll | route_planner/route_calculator.py:115-123 | after all neighbours: reached nodes are the old ones plus the neighbours, each no dearer than current cost plus its step, and the side stays well formed |
| Frontiers.RelaxQueues | route_planner/route_calculator.py:118-123 | the side changes exactly when the neighbour is new or strictly cheaper through the current node; then its parent is the current node and the queue gains exactly one entry, keyed by the new cost plus the heuristic to the goal |
| Frontiers.RelaxOnlyAdds | route_planner/route_calculator.py:118-123 | the queue only grows; each new entry is the neighbour at the current cost plus its step, cheaper than before; a lowered cost gets the current node as parent; an unchanged cost keeps its parent |
| Frontiers.RelaxKeepsKeys | route_planner/route_calculator.py:120-122 | every queued entry stays keyed as cost plus the heuristic, and no entry is cheaper than its node's recorded cost |
| Frontiers.RelaxAllOnlyAdds | route_planner/route_calculator.py:115-123 | over all neighbours: the queue only grows, new entries are neighbours at the current cost plus their step, and lowered costs get the current node as parent |
| Frontiers.RelaxAllKeepsKeys | route_planner/route_calculator.py:115-123 | over all neighbours every queued entry stays keyed and no cheaper than its node's recorded cost |
| Frontiers.RelaxQueuesNew | route_planner/route_calculator.py:118-123 | a relaxation that reaches a node for the first time queues it |
| Frontiers.RelaxAllQueuesNew | route_planner/route_calculator.py:115-123 | relaxing all neighbours queues every node reached for the first time |
| Frontiers.Chain | route_planner/route_calculator.py:148-151 | the walk starts at the node, follows parent links, and ends at a node without a parent |
| Frontiers.Reverse | route_planner/route_calculator.py:152 | element `i` of the result is element `n-1-i` of the input |
| ParentOrder.RelaxOrdered | route_planner/route_calculator.py:119-123 | a relaxation keeps every parent ranked before its child |
| ParentOrder.RelaxAllOrdered | route_planner/route_calculator.py:115-123 | relaxing all neighbours keeps every parent ranked before its child |
| ParentOrder.ChainComplete | route_planner/route_calculator.py:148-151 | with parents ranked before children, the parent walk ends within the number of reached nodes and never revisits its start |
| BidirectionalSearch.Expand | route_planner/route_calculator.py:108-123 | pops the head; the best meeting only changes to the popped node when the other side has reached it and the summed cost is strictly cheaper; a first meeting is always taken; the side stays well formed and costs only go down |
| BidirectionalSearch.ExpandQueues | route_planner/route_calculator.py:108-123 | the head is popped once, and every other change is a relaxation of the head node's neighbours from the head node's recorded cost |
| BidirectionalSearch.ExpandKeepsKeys | route_planner/route_calculator.py:108-123 | an expansion keeps every queued entry keyed towards its goal |
| BidirectionalSearch.Initial | route_planner/route_calculator.py:86-97 | each queue holds just its start node at cost 0, keyed by the heuristic to the other end; no meeting yet; both sides well formed on any graph |
| BidirectionalSearch.Round | route_planner/route_calculator.py:100-141 | a forward then a backward expansion keeps both sides well formed, never worsens the best meeting, and only lowers costs |
| BidirectionalSearch.RoundQueues | route_planner/route_calculator.py:100-141 | each side pops its head once and otherwise only relaxes the popped node's neighbours; a new best meeting is one of the two popped nodes |
| BidirectionalSearch.RoundKeepsKeys | route_planner/route_calculator.py:107-141 | a round keeps forward entries keyed towards the target and backward entries towards the source |
| BidirectionalSearch.ExpandKeepsQueued | route_planner/route_calculator.py:108-123 | after an expansion a node is queued when it was reached for the first time, or was queued before and is not the popped node |
| BidirectionalSearch.ExpandExplores | route_planner/route_calculator.py:108-123 | every reached node stays queued or has all its neighbours reached: the popped node leaves with all its neighbours reached |
| BidirectionalSearch.RoundCompletes | route_planner/route_calculator.py:100-141 | a round keeps both sides explored, and while no meeting is known it keeps a reached target queued forward and a reached source queued backward |
| BidirectionalSearch.Run | route_planner/route_calculator.py:100-141 | when the loop ends, a queue is empty or the best cost is no more than the sum of the head priorities; an already stopped state is returned as is; the invariants, including keyed queues and no reached node left unexplored, hold at the end |
| BidirectionalSearch.ForwardChainIsPath | route_planner/route_calculator.py:147-152 | the reversed forward parent walk is a path of graph edges from the source to the meeting node |
| BidirectionalSearch.BackwardChainIsPath | route_planner/route_calculator.py:154-158 | the backward parent walk is a path of graph edges from its start to the target |
| BidirectionalSearch.JoinRoutes | route_planner/route_calculator.py:160 | a path to the meeting node, an edge out of it, and a path on to the target join into one source-to-target path |
| BidirectionalSearch.Reconstruct | route_planner/route_calculator.py:146-161 | a rebuilt path runs along graph edges from source to target through the meeting node; the only failure is a parent cycle |
| BidirectionalSearch.RoundOrdered | route_planner/route_calculator.py:100-141 | a round keeps both sides' parents ranked before their children |
| BidirectionalSearch.ReconstructSucceeds | route_planner/route_calculator.py:146-161 | with ranked parents the rebuild succeeds and the meeting node occurs exactly once in the path |
| BidirectionalSearch.OnceInJoin | route_planner/route_calculator.py:155-160 | because the backward part starts at the meeting node's parent, the joined path holds the meeting node once |
| BidirectionalSearch.MeetingGivesRoute | route_planner/route_calculator.py:143-161 | whenever the loop ends with a meeting node, the path is rebuilt and holds that node once |
| BidirectionalSearch.InitialComplete | route_planner/route_calculator.py:86-89 | at the start each root is queued on its own side, so nothing reached is unexplored |
| BidirectionalSearch.Outcome | route_planner/route_calculator.py:86-141 | a finished search satisfies the stop condition, keeps both sides well formed, keeps parents ranked, and leaves no reached node unexplored |
| BidirectionalSearch.ClosedForward | route_planner/route_calculator.py:100-123 | with the forward queue empty, every node on a path from a reached node has been reached forward |
| BidirectionalSearch.ClosedBackward | route_planner/route_calculator.py:100-141 | with the backward queue empty, every node on a path to a reached node has been reached backward |
| BidirectionalSearch.NoMeetingNoRoute | route_planner/route_calculator.py:100-144 | a search that ends without a meeting node leaves no route from the source to the target |
| BidirectionalSearch.OutcomeStopsOnEstimate | route_planner/route_calculator.py:86-105 | a finished search with both queues non-empty has a meeting no dearer than the two heads' costs plus their heuristic estimates |
| BidirectionalSearch.BidirectionalAStar | route_planner/route_calculator.py:70-161 | a returned path runs along graph edges from source to target; no path is reported exactly when the loop ends without a meeting node, and then no route from source to target exists; the meeting node occurs once; a parent cycle is never reported |
| SearchExamples.HaltsAfterOneRound | route_planner/route_calculator.py:100-105 | on the three-node graph the loop stops after one round, meeting at the target with cost 20 |
| SearchExamples.ReconstructDirectEdge | route_planner/route_calculator.py:146-161 | that meeting rebuilds the direct path `[0, 2]` |
| SearchExamples.StopRuleMissesShorterRoute | route_planner/route_calculator.py:104-105 | the search returns the path of cost 20 although a path of cost 10 exists |
| Benchmark.Dispatch | route_planner/route_calculator.py:37-58 | the four library names return exactly what the graph library returns; an unknown name fails as unsupported; the hand-written search's paths are source-to-target paths, and so are all paths when the library's are |
| Benchmark.UnsupportedOnlyForUnknown | route_planner/route_calculator.py:57-58 | when the library never reports an unsupported name itself, only unknown names are unsupported |
| Benchmark.Successes | route_planner/route_calculator.py:34-35 | increasing positions of destinations whose run succeeds; all of them when every run succeeds, none when every run fails |
| Benchmark.SuccessesComplete | route_planner/route_calculator.py:34-61 | every destination whose run succeeds is among the stored positions |
| Benchmark.Attempts | route_planner/route_calculator.py:34-65 | one route and one time per successful destination; every destination stored when all runs succeed; nothing when all fail |
| Benchmark.AttemptsStep | route_planner/route_calculator.py:34-62 | a successful destination adds its route and time in front of the rest; a failed one adds nothing |
| Benchmark.AttemptsAt | route_planner/route_calculator.py:59-61 | entry `i` is the route the run returned for the `i`-th successful destination, with that run's time, so entries keep destination order |
| Benchmark.AttemptsAreFound | route_planner/route_calculator.py:60 | every stored route is what the run returned for one of the destinations |
| Benchmark.CollectGathers | route_planner/route_calculator.py:30-61 | the loop appends to each name exactly the routes and times of every position in the run that carries that name |
| Benchmark.GatheredStep | route_planner/route_calculator.py:33-61 | a position carrying the name adds at most one route per destination; other positions add nothing |
| Benchmark.GatheredBound | route_planner/route_calculator.py:33-61 | each occurrence of a name in the run adds at most one route per destination |
| Benchmark.CalculateRoutes | route_planner/route_calculator.py:22-67 | both result maps have exactly the requested names as keys; the routes and mean time of each name are those its runs gathered |
| Benchmark.Mean | route_planner/route_calculator.py:67 | zero with no times; otherwise the mean times the count is the sum |
| Benchmark.MeanBounds | route_planner/route_calculator.py:67 | the mean lies between the smallest and the largest time |
| Benchmark.OnceInTheRun | route_planner/route_calculator.py:30-67 | a name requested once stores its own successful routes in destination order and their mean time |
| Benchmark.UnsupportedIsEmpty | route_planner/route_calculator.py:57-67 | an unknown name is kept with no routes and a mean time of 0 |
| Benchmark.RoutesBound | route_planner/route_calculator.py:33-61 | a name stores at most one route per destination per occurrence in the run |
| Benchmark.GatheredAreFound | route_planner/route_calculator.py:38-60 | every route stored under a name is a successful run of that name to one of the destinations |
| Benchmark.SearchRoutesAreRoutes | route_planner/route_calculator.py:53-60 | every route the hand-written search stores runs along graph edges from the origin to a destination |
| Benchmark.StoredRoutesAreRoutes | route_planner/route_calculator.py:37-60 | when the graph library returns only source-to-target paths, every route stored under every requested name runs along graph edges from the origin to a destination |
| Ranking.Reached | route_planner/gui.py:353-358 | the positions of the destinations with a path, increasing, all of them |
| Ranking.Reachable | route_planner/gui.py:352-358 | a missing path skips the destination; any other error ends the selection; the kept entries are the reachable destinations in order, with their own length, node and name |
| Ranking.Insert | route_planner/gui.py:361 | inserting keeps the order by distance and adds exactly the one entry |
| Ranking.SortByDistance | route_planner/gui.py:361 | the result is ordered by distance and is a permutation of the input |
| Ranking.InsertStable | route_planner/gui.py:361 | the inserted entry comes last among the entries at its distance |
| Ranking.SortStable | route_planner/gui.py:361 | for every distance, the entries at it come out in the order they went in |
| Ranking.Wanted | route_planner/gui.py:368-370 | the package window's count is lowered to the number found; an empty reply asks for all |
| Ranking.IndexOf | route_planner/gui.py:382 | the first position holding the node |
| Ranking.CoordsOf | route_planner/gui.py:380-383 | each kept node's coordinates are those at its first position among the destinations |
| Ranking.SelectClosest | route_planner/gui.py:345-387 | fails exactly when a distance query fails other than for a missing path; three aligned lists; each selected coordinate is the one stored at the first position of its node among the destinations; nothing reachable gives three empty lists and leaves the coordinates alone |
| Ranking.SelectionIsClosest | route_planner/gui.py:361-377 | the selection is a prefix of the stably sorted reachable destinations, no farther than any destination left out, of the length the count rule asks for |
| Ranking.SelectionSize | route_planner/gui.py:368-372 | the package window keeps `min(n, found)` for `n >= 0`; an empty count reply in `tcc_poo.py` (lines 585-591) keeps every reachable destination; `tcc_poo_Interface_grafica.py` (line 699) keeps `min(10, found)` |
| Ranking.SelectedAreReachable | route_planner/gui.py:355-356 | each kept distance is the path length reported for its node, and each name is one listed with that node |
| Plotting.DashArray | route_planner/route_plotter.py:14-24 | dashed, dotted and dashdot get their patterns; every other style, solid included, gets none |
| Plotting.DashArrayRoundTrip | route_planner/route_plotter.py:14-24 | each known style can be read back from its pattern; an unknown style draws like solid |
| Plotting.DefaultPreferences | route_planner/preferences.py:19-29 | the defaults cover exactly the five algorithms, all solid, each in its colour from the fixed colour table (green, purple, orange, blue and darkgreen); `OLD/tcc_poo.py` (lines 63-70) has the same defaults |
| Plotting.VisualizationPreferences | route_planner/preferences.py:16-17 | stored preferences win; otherwise the defaults |
| Plotting.PrefsFor | route_planner/route_plotter.py:47 | an algorithm without preferences is drawn blue and solid |
| Plotting.ColorFor | tcc_poo_Interface_grafica.py:362-390 | the table's colour, or blue for an algorithm it does not list |
| Plotting.DefaultsMatchColorTable | tcc_poo.py:400-406 | with default preferences the package plotter paints every algorithm as the colour table does |
| Plotting.Drawn | route_planner/route_plotter.py:53-59 | a route becomes a line, as often as it is stored, exactly when it has two nodes or more and every node is in the graph |
| Plotting.DrawnIdempotent | route_planner/route_plotter.py:55-56 | filtering the drawn routes again changes nothing |
| Plotting.RoutesToDraw | route_planner/route_plotter.py:53-59 | fails exactly when the algorithm has no stored routes; draws only from the first `limit` routes, at most `limit` lines |
| Plotting.Layers | route_planner/route_plotter.py:46-53 | one layer per algorithm, in order, with its colour, pattern and drawable routes; the first algorithm without routes stops the plot |
| Plotting.PlotLimit | tcc_poo_Interface_grafica.py:600 | at most ten and at most the number selected |
| Plotting.LayersAtMostTen | tcc_poo_Interface_grafica.py:600-609 | the window planner draws at most ten routes per algorithm, and no more than were selected |
| Plotting.RoutesLimit | tcc_poo.py:540-544 | no algorithm stored more routes than the limit, and one stored exactly that many (or the limit is 0) |
| Plotting.RoutesLimitDrawsAll | tcc_poo.py:540-558 | under that limit every drawable stored route is drawn |
| Plotting.SplitExt | route_planner/route_plotter.py:115 | root plus extension is the name; an extension starts with its only dot and holds no `/`; the root then has a non-dot character in its last component |
| Plotting.SplitPlainName | route_planner/route_plotter.py:115 | a plain name splits at its one dot |
| Plotting.SplitHiddenName | route_planner/route_plotter.py:115 | a name with only a leading dot has no extension |
| Plotting.NumberedInjective | route_planner/route_plotter.py:118 | different numbers give different names |
| Plotting.CandidateExample | route_planner/route_plotter.py:118 | the first alternative to `mapa_rotas.html` is `mapa_rotas_01.html` |
| Plotting.FirstFree | route_planner/route_plotter.py:116-121 | the first number from 1 whose name is free; all smaller ones are taken |
| Plotting.UniqueFilename | route_planner/route_plotter.py:108-121 | the name is never taken; a free base name is kept; otherwise the smallest free numbered name |
| Decimal.Pad2 | route_planner/route_plotter.py:118 | at least two digits; one-digit numbers get a leading zero; others are written plainly |
| Decimal.Pad2Injective | route_planner/route_plotter.py:118 | different numbers are written differently |
| Decimal.IntToString | app/services.py:83 | a sign exactly for negatives, digits otherwise |
| Decimal.ParseIntToString | app/services.py:83 | the written number reads back as itself |
| PgRouting.FunctionFor | app/services.py:71-78 | only dijkstra, astar and bellman_ford have a pgRouting function, each its own |
| PgRouting.BuildQuery | app/services.py:70-86 | fails exactly for other names; the text starts with `SELECT * FROM` and the function |
| PgRouting.ParseBuiltQuery | app/services.py:80-86 | the function, source and target read back out of the built text |
| PgRouting.BuildQueryInjective | app/services.py:70-86 | different requests give different texts |
| PgRouting.QueryReadsWaysDirected | app/services.py:82-83 | every query reads `FROM ways` and sets `directed := true` |
| PgRouting.Accumulate | app/services.py:56-66 | fails exactly when a query cannot be built; one leg per destination; the time is the running total plus the rest |
| PgRouting.AccumulateLegs | app/services.py:58-65 | leg `i` pairs the rows of destination `i`'s query with its latitude and longitude |
| PgRouting.CalculateRoute | app/services.py:52-68 | one leg per destination, in order, with its rows and coordinates; the total time is the sum of the times; an unknown name fails unless there are no destinations |

## Left out

- Graph library calls. `shortest_path`, `astar_path`, `bellman_ford_path`, `bidirectional_dijkstra` and `shortest_path_length` are parameters (`Benchmark.Library`, `Ranking.Distance`). They are foreign code, so the model does not re-implement them.
- The Euclidean heuristic is an abstract function to naturals, because it uses floating point.
- Edge lengths, path lengths and times are natural numbers, not floats. Mean times are reals.
- Clocks. Elapsed times are parameters: `Benchmark.Env.elapsed` and the `elapsed` argument of `PgRouting.CalculateRoute`.
- The search loop has no obvious variant. `BidirectionalSearch.Run` takes a fuel bound and reports `OutOfFuel` when it runs out. The model does not bound the number of rounds the source needs.
- `best_cost` set to infinity and `meeting_node = None` are one `Option<Meeting>`, because the source always sets the two together.
- A missing endpoint is reported as `NodeNotFound` before the search. In the source, the heuristic's or the graph's lookup fails with its own error. Either way the benchmark loop catches it.
- The street graph is a multigraph in practice. For a multigraph the library's edge data is a dictionary of parallel edges, and the `length` lookup then always falls back to 1. The model follows the directed graph the search is documented to take: one record per ordered pair, where a later length replaces an earlier one.
- Logging, printing, folium maps, markers, popups, layer names, arrows, the layer control, the browser and saving the map.
- The projection transformer. Its failures inside the drawing loop are caught too, but only the lookup of unknown nodes is modelled.
- `Plotting.UniqueFilename`: the files that exist are a set parameter, not the file system.
- Parsing the count reply with `int()`, and its error. The reply arrives parsed (`Ranking.CountRule.Reply`).
- `Ranking.SelectClosest` requires aligned node, name and coordinate lists. The source would fail with an index error otherwise.
- `Plotting.RoutesLimit` requires a stored entry for each algorithm. The source would fail with a lookup error otherwise. The benchmark always stores one.
- The database connection. Rows are an abstract function of the query text (`db`), and fetching the destinations from the database is not modelled.
- The GUI windows, geocoding, fetching points of interest, downloading the graph, JSON persistence of preferences, the Flask app, and the data analysis.
- Plotting.Drawn: states how often each route is drawn, not that drawn routes keep their stored order.
- Benchmark.GatheredAreFound: states where each stored route comes from, not its position; for a name requested once, `Benchmark.OnceInTheRun` and `Benchmark.AttemptsAt` give the order.
- Frontiers.Relax: its own contract states that a known cost never rises, not that an overwritten cost drops strictly; `Frontiers.RelaxQueues` states the strict drop.

=== FILE: benchmark.dfy ===
/**
 * The benchmark loop of the route calculator: every algorithm is run from
 * the origin to every selected destination, the routes that are found are
 * stored per algorithm, and the mean running time of each algorithm is
 * reported. Failures of any kind are logged and skipped.
 */
module Benchmark {
  import opened Wrappers
  import opened Collections
  import opened Graph
  import opened Frontiers
  import opened BidirectionalSearch

  /** The graph library's path functions, by algorithm name. */
  type Library = (string, Node, Node) -> Result<seq<Node>, SearchError>

  /** What the loop needs from outside: the graph and heuristic for the
      hand-written search (with its step budget), the library for the
      other algorithms, and the clock, given as the time the `a`-th
      algorithm of the run took on the `k`-th destination. */
  datatype Env = Env(g: Graph, h: Heuristic, fuel: nat, library: Library, elapsed: (nat, nat) -> nat)

  /** The four algorithms the graph library provides. */
  predicate InLibrary(alg: string) {
    alg == "dijkstra" || alg == "astar" || alg == "bellman_ford" || alg == "bidirectional_dijkstra"
  }

  predicate Supported(alg: string) {
    InLibrary(alg) || alg == "bidirectional_a_star"
  }

  /** What the graph library promises: a path it returns for a name it
      knows runs along edges from the source to the target. */
  ghost predicate LibrarySound(env: Env) {
    forall alg, s, t :: InLibrary(alg) && env.library(alg, s, t).Success? ==>
      IsRoute(env.g, s, t, env.library(alg, s, t).value)
  }

  /** One run of one algorithm; an unknown name is an error. */
  function Dispatch(env: Env, alg: string, source: Node, target: Node): (r: Result<seq<Node>, SearchError>)
    ensures !Supported(alg) ==> r == Failure(Unsupported)
    ensures InLibrary(alg) ==> r == env.library(alg, source, target)
    ensures alg == "bidirectional_a_star" && r.Success? ==> IsRoute(env.g, source, target, r.value)
    ensures LibrarySound(env) && r.Success? ==> IsRoute(env.g, source, target, r.value)
  {
    if InLibrary(alg) then env.library(alg, source, target)
    else if alg == "bidirectional_a_star" then BidirectionalAStar(env.g, env.h, source, target, env.fuel)
    else Failure(Unsupported)
  }

  /** Only an unknown name is reported as unsupported, as long as the
      library never reports it itself. */
  lemma UnsupportedOnlyForUnknown(env: Env, alg: string, source: Node, target: Node)
    requires forall a: string, s: Node, t: Node :: env.library(a, s, t) != Failure(Unsupported)
    ensures Dispatch(env, alg, source, target) == Failure(Unsupported) <==> !Supported(alg)
  {
  }

  // ---------------------------------------------------------------------
  // One algorithm over the destinations

  /** The positions from `k` on whose run succeeds, in increasing order. */
  function Successes(run: Node -> Result<seq<Node>, SearchError>, targets: seq<Node>, k: nat): (r: seq<nat>)
    requires k <= |targets|
    ensures forall i :: 0 <= i < |r| ==> k <= r[i] < |targets| && run(targets[r[i]]).Success?
    ensures forall i, j :: 0 <= i < j < |r| ==> r[i] < r[j]
    ensures (forall j :: k <= j < |targets| ==> run(targets[j]).Success?) ==> |r| == |targets| - k
    ensures (forall j :: k <= j < |targets| ==> run(targets[j]).Failure?) ==> r == []
    decreases |targets| - k
  {
    if k == |targets| then []
    else
      var rest := Successes(run, targets, k + 1);
      if run(targets[k]).Success? then [k] + rest else rest
  }

  /** No successful destination is left out. */
  lemma {:induction false} SuccessesComplete(run: Node -> Result<seq<Node>, SearchError>, targets: seq<Node>,
                                             k: nat, j: nat)
    requires k <= j < |targets| && run(targets[j]).Success?
    ensures j in Successes(run, targets, k)
    decreases |targets| - k
  {
    if k < j {
      SuccessesComplete(run, targets, k + 1, j);
    }
  }

  /** The routes found from destination `k` on, and the time each took:
      one entry per successful run; a destination whose run fails is
      skipped. */
  function Attempts(run: Node -> Result<seq<Node>, SearchError>, clock: nat -> nat, targets: seq<Node>, k: nat)
    : (r: (seq<seq<Node>>, seq<nat>))
    requires k <= |targets|
    ensures |r.0| == |r.1| == |Successes(run, targets, k)| <= |targets| - k
    ensures (forall j :: k <= j < |targets| ==> run(targets[j]).Success?) ==> |r.0| == |targets| - k
    ensures (forall j :: k <= j < |targets| ==> run(targets[j]).Failure?) ==> r == ([], [])
    decreases |targets| - k
  {
    if k == |targets| then ([], [])
    else
      var rest := Attempts(run, clock, targets, k + 1);
      match run(targets[k])
      case Success(route) => ([route] + rest.0, [clock(k)] + rest.1)
      case Failure(_) => rest
  }

  /** One step of the loop over the destinations. */
  lemma AttemptsStep(run: Node -> Result<seq<Node>, SearchError>, clock: nat -> nat, targets: seq<Node>, k: nat)
    requires k < |targets|
    ensures run(targets[k]).Success? ==>
              && Successes(run, targets, k) == [k] + Successes(run, targets, k + 1)
              && Attempts(run, clock, targets, k).0 == [run(targets[k]).value] + Attempts(run, clock, targets, k + 1).0
              && Attempts(run, clock, targets, k).1 == [clock(k)] + Attempts(run, clock, targets, k + 1).1
    ensures run(targets[k]).Failure? ==>
              && Successes(run, targets, k) == Successes(run, targets, k + 1)
              && Attempts(run, clock, targets, k) == Attempts(run, clock, targets, k + 1)
  {
  }

  /** Entry `i` is the route and the time of the `i`-th successful
      destination, so the entries keep destination order. */
  lemma {:induction false} AttemptsAt(run: Node -> Result<seq<Node>, SearchError>, clock: nat -> nat,
                                      targets: seq<Node>, k: nat, i: nat)
    requires k <= |targets| && i < |Attempts(run, clock, targets, k).0|
    ensures var j := Successes(run, targets, k)[i];
            && run(targets[j]) == Success(Attempts(run, clock, targets, k).0[i])
            && Attempts(run, clock, targets, k).1[i] == clock(j)
    decreases |targets| - k
  {
    AttemptsStep(run, clock, targets, k);
    if run(targets[k]).Success? {
      if i > 0 {
        AttemptsAt(run, clock, targets, k + 1, i - 1);
      }
    } else {
      AttemptsAt(run, clock, targets, k + 1, i);
    }
  }

  /** Every stored route is what the run returned for some destination. */
  lemma AttemptsAreFound(run: Node -> Result<seq<Node>, SearchError>, clock: nat -> nat, targets: seq<Node>,
                         route: seq<Node>)
    requires route in Attempts(run, clock, targets, 0).0
    ensures exists t :: t in targets && run(t) == Success(route)
  {
    var r := Attempts(run, clock, targets, 0);
    var found := Successes(run, targets, 0);
    var i :| 0 <= i < |r.0| && r.0[i] == route;
    AttemptsAt(run, clock, targets, 0, i);
    var j := found[i];
    assert 0 <= j < |targets|;
    assert run(targets[j]) == Success(route);
    var t := targets[j];
    assert t in targets && run(t) == Success(route);
  }

  /** The runs of the `a`-th algorithm over all destinations. */
  function Trials(env: Env, algorithms: seq<string>, a: nat, source: Node, targets: seq<Node>)
    : (r: (seq<seq<Node>>, seq<nat>))
    requires a < |algorithms|
    ensures |r.0| == |r.1| <= |targets|
  {
    Attempts(t => Dispatch(env, algorithms[a], source, t), k => env.elapsed(a, k), targets, 0)
  }

  // ---------------------------------------------------------------------
  // All algorithms

  /** What one name has gathered from position `a` of the run on: the
      routes and times of every position that carries that name. */
  function Gathered(env: Env, algorithms: seq<string>, x: string, a: nat, source: Node, targets: seq<Node>)
    : (r: (seq<seq<Node>>, seq<nat>))
    requires a <= |algorithms|
    ensures |r.0| == |r.1|
    decreases |algorithms| - a
  {
    if a == |algorithms| then ([], [])
    else
      var rest := Gathered(env, algorithms, x, a + 1, source, targets);
      if algorithms[a] == x then
        var mine := Trials(env, algorithms, a, source, targets);
        (mine.0 + rest.0, mine.1 + rest.1)
      else rest
  }

  /** One step of the loop over the run: a position carrying the name adds
      at most one route per destination. */
  lemma GatheredStep(env: Env, algorithms: seq<string>, x: string, a: nat, source: Node, targets: seq<Node>)
    requires a < |algorithms|
    ensures |Gathered(env, algorithms, x, a, source, targets).0|
            <= (if algorithms[a] == x then |targets| else 0) + |Gathered(env, algorithms, x, a + 1, source, targets).0|
  {
  }

  /** Each occurrence of a name gathers at most one route per destination. */
  lemma {:induction false} GatheredBound(env: Env, algorithms: seq<string>, x: string, a: nat,
                                         source: Node, targets: seq<Node>)
    requires a <= |algorithms|
    ensures |Gathered(env, algorithms, x, a, source, targets).0| <= Count(algorithms[a..], x) * |targets|
    decreases |algorithms| - a
  {
    if a < |algorithms| {
      GatheredBound(env, algorithms, x, a + 1, source, targets);
      GatheredStep(env, algorithms, x, a, source, targets);
      assert algorithms[a..][1..] == algorithms[a + 1..];
      var c := Count(algorithms[a + 1..], x);
      if algorithms[a] == x {
        assert Count(algorithms[a..], x) == c + 1;
        MulSucc(c, |targets|);
      } else {
        assert Count(algorithms[a..], x) == c;
      }
    }
  }

  lemma MulStep(a: nat, n: nat)
    ensures a * (n + 1) == a + a * n
  {
  }

  lemma MulSucc(c: nat, n: nat)
    ensures (c + 1) * n == n + c * n
  {
  }

  /** The loop's running state: routes and times per name. */
  datatype Tally = Tally(routes: map<string, seq<seq<Node>>>, times: map<string, seq<nat>>)

  /** The loop over the algorithms from position `a`, appending each run's
      routes and times to the entry of its name. */
  function Collect(env: Env, algorithms: seq<string>, a: nat, source: Node, targets: seq<Node>, acc: Tally)
    : (r: Tally)
    requires a <= |algorithms|
    requires forall i :: a <= i < |algorithms| ==> algorithms[i] in acc.routes && algorithms[i] in acc.times
    ensures r.routes.Keys == acc.routes.Keys && r.times.Keys == acc.times.Keys
    decreases |algorithms| - a
  {
    if a == |algorithms| then acc
    else
      var alg := algorithms[a];
      var mine := Trials(env, algorithms, a, source, targets);
      Collect(env, algorithms, a + 1, source, targets,
              Tally(acc.routes[alg := acc.routes[alg] + mine.0], acc.times[alg := acc.times[alg] + mine.1]))
  }

  /** The loop appends to each name exactly what that name gathers. */
  lemma {:induction false} CollectGathers(env: Env, algorithms: seq<string>, a: nat, source: Node,
                                          targets: seq<Node>, acc: Tally, x: string)
    requires a <= |algorithms|
    requires forall i :: a <= i < |algorithms| ==> algorithms[i] in acc.routes && algorithms[i] in acc.times
    requires x in acc.routes && x in acc.times
    ensures Collect(env, algorithms, a, source, targets, acc).routes[x]
            == acc.routes[x] + Gathered(env, algorithms, x, a, source, targets).0
    ensures Collect(env, algorithms, a, source, targets, acc).times[x]
            == acc.times[x] + Gathered(env, algorithms, x, a, source, targets).1
    decreases |algorithms| - a
  {
    if a < |algorithms| {
      var alg := algorithms[a];
      var mine := Trials(env, algorithms, a, source, targets);
      var next := Tally(acc.routes[alg := acc.routes[alg] + mine.0], acc.times[alg := acc.times[alg] + mine.1]);
      assert Collect(env, algorithms, a, source, targets, acc) == Collect(env, algorithms, a + 1, source, targets, next);
      CollectGathers(env, algorithms, a + 1, source, targets, next, x);
      var rest := Gathered(env, algorithms, x, a + 1, source, targets);
      if alg == x {
        assert Gathered(env, algorithms, x, a, source, targets) == (mine.0 + rest.0, mine.1 + rest.1);
        AppendAssoc(acc.routes[x], mine.0, rest.0);
        AppendAssoc(acc.times[x], mine.1, rest.1);
      } else {
        assert Gathered(env, algorithms, x, a, source, targets) == rest;
        assert next.routes[x] == acc.routes[x] && next.times[x] == acc.times[x];
      }
    } else {
      AppendEmpty(acc.routes[x]);
      AppendEmpty(acc.times[x]);
    }
  }

  // ---------------------------------------------------------------------
  // Mean times

  function Sum(s: seq<nat>): nat {
    if s == [] then 0 else s[0] + Sum(s[1..])
  }

  /** The mean of the times, zero when there are none. */
  function Mean(s: seq<nat>): (r: real)
    ensures s == [] ==> r == 0.0
    ensures s != [] ==> r * |s| as real == Sum(s) as real
  {
    if s == [] then 0.0 else Sum(s) as real / |s| as real
  }

  lemma {:induction false} SumBounds(s: seq<nat>, lo: nat, hi: nat)
    requires forall i :: 0 <= i < |s| ==> lo <= s[i] <= hi
    ensures lo * |s| <= Sum(s) <= hi * |s|
  {
    if s != [] {
      SumBounds(s[1..], lo, hi);
      MulStep(lo, |s| - 1);
      MulStep(hi, |s| - 1);
    }
  }

  /** The mean lies between the smallest and the largest time. */
  lemma MeanBounds(s: seq<nat>, lo: nat, hi: nat)
    requires s != []
    requires forall i :: 0 <= i < |s| ==> lo <= s[i] <= hi
    ensures lo as real <= Mean(s) <= hi as real
  {
    SumBounds(s, lo, hi);
    RealBounds(Sum(s), |s|, Mean(s), lo, hi);
  }

  /** A ratio of naturals lies between the bounds that its numerator does,
      scaled by its denominator. */
  lemma RealBounds(sum: nat, k: nat, m: real, lo: nat, hi: nat)
    requires k > 0 && m * k as real == sum as real && lo * k <= sum <= hi * k
    ensures lo as real <= m <= hi as real
  {
    var n := k as real;
    assert (lo * k) as real == lo as real * n;
    assert (hi * k) as real == hi as real * n;
    ScaleBack(lo as real, m, n);
    ScaleBack(m, hi as real, n);
  }

  /** Dividing both sides by a positive number keeps an inequality. */
  lemma ScaleBack(a: real, b: real, n: real)
    requires n > 0.0 && a * n <= b * n
    ensures a <= b
  {
  }

  // ---------------------------------------------------------------------
  // The whole benchmark

  datatype Report = Report(routes: map<string, seq<seq<Node>>>, avgTimes: map<string, real>)

  /** Every algorithm over every destination; the routes and mean times
      per algorithm name. */
  function CalculateRoutes(env: Env, algorithms: seq<string>, source: Node, targets: seq<Node>): (r: Report)
    ensures r.routes.Keys == (set alg | alg in algorithms) && r.avgTimes.Keys == r.routes.Keys
    ensures forall x :: x in r.routes ==> r.routes[x] == Gathered(env, algorithms, x, 0, source, targets).0
    ensures forall x :: x in r.avgTimes ==> r.avgTimes[x] == Mean(Gathered(env, algorithms, x, 0, source, targets).1)
  {
    var empty := Tally(map alg | alg in algorithms :: [], map alg | alg in algorithms :: []);
    var tally := Collect(env, algorithms, 0, source, targets, empty);
    forall x | x in tally.routes
      ensures tally.routes[x] == Gathered(env, algorithms, x, 0, source, targets).0
      ensures tally.times[x] == Gathered(env, algorithms, x, 0, source, targets).1
    {
      CollectGathers(env, algorithms, 0, source, targets, empty, x);
    }
    Report(tally.routes, map x | x in tally.times :: Mean(tally.times[x]))
  }

  /** A name that occurs once in the run gets the routes of its own runs,
      in destination order, and the mean of their times. */
  lemma {:induction false} GatheredOnce(env: Env, algorithms: seq<string>, x: string, p: nat, a: nat,
                                        source: Node, targets: seq<Node>)
    requires a <= p < |algorithms| && algorithms[p] == x
    requires forall i :: 0 <= i < |algorithms| && i != p ==> algorithms[i] != x
    ensures Gathered(env, algorithms, x, a, source, targets) == Trials(env, algorithms, p, source, targets)
    decreases |algorithms| - a
  {
    var mine := Trials(env, algorithms, p, source, targets);
    var rest := Gathered(env, algorithms, x, a + 1, source, targets);
    if a == p {
      assert Gathered(env, algorithms, x, a, source, targets) == (mine.0 + rest.0, mine.1 + rest.1);
      GatheredNone(env, algorithms, x, p + 1, source, targets);
      AppendEmpty(mine.0);
      AppendEmpty(mine.1);
    } else {
      assert Gathered(env, algorithms, x, a, source, targets) == rest;
      GatheredOnce(env, algorithms, x, p, a + 1, source, targets);
    }
  }

  /** Past the last position carrying a name, nothing more is gathered. */
  lemma {:induction false} GatheredNone(env: Env, algorithms: seq<string>, x: string, a: nat,
                                        source: Node, targets: seq<Node>)
    requires a <= |algorithms|
    requires forall i :: a <= i < |algorithms| ==> algorithms[i] != x
    ensures Gathered(env, algorithms, x, a, source, targets) == ([], [])
    decreases |algorithms| - a
  {
    if a < |algorithms| {
      GatheredNone(env, algorithms, x, a + 1, source, targets);
    }
  }

  lemma OnceInTheRun(env: Env, algorithms: seq<string>, p: nat, source: Node, targets: seq<Node>)
    requires p < |algorithms|
    requires forall i :: 0 <= i < |algorithms| && i != p ==> algorithms[i] != algorithms[p]
    ensures var r := CalculateRoutes(env, algorithms, source, targets);
            && r.routes[algorithms[p]] == Trials(env, algorithms, p, source, targets).0
            && r.avgTimes[algorithms[p]] == Mean(Trials(env, algorithms, p, source, targets).1)
  {
    GatheredOnce(env, algorithms, algorithms[p], p, 0, source, targets);
  }

  /** An unsupported name gathers nothing from any position. */
  lemma {:induction false} GatheredUnsupported(env: Env, algorithms: seq<string>, x: string, a: nat,
                                               source: Node, targets: seq<Node>)
    requires a <= |algorithms| && !Supported(x)
    ensures Gathered(env, algorithms, x, a, source, targets) == ([], [])
    decreases |algorithms| - a
  {
    if a < |algorithms| {
      GatheredUnsupported(env, algorithms, x, a + 1, source, targets);
      if algorithms[a] == x {
        var mine := Trials(env, algorithms, a, source, targets);
        assert mine == ([], []);
      }
    }
  }

  /** An unsupported name is kept with no routes and a mean time of zero. */
  lemma UnsupportedIsEmpty(env: Env, algorithms: seq<string>, x: string, source: Node, targets: seq<Node>)
    requires x in algorithms && !Supported(x)
    ensures var r := CalculateRoutes(env, algorithms, source, targets);
            x in r.routes && r.routes[x] == [] && r.avgTimes[x] == 0.0
  {
    GatheredUnsupported(env, algorithms, x, 0, source, targets);
  }

  /** Each name stores at most one route per destination per occurrence. */
  lemma RoutesBound(env: Env, algorithms: seq<string>, x: string, source: Node, targets: seq<Node>)
    requires x in algorithms
    ensures |CalculateRoutes(env, algorithms, source, targets).routes[x]| <= Count(algorithms, x) * |targets|
  {
    GatheredBound(env, algorithms, x, 0, source, targets);
    assert algorithms[0..] == algorithms;
  }

  /** Every route gathered under a name is what a run of that name
      returned for one of the destinations. */
  lemma {:induction false} GatheredAreFound(env: Env, algorithms: seq<string>, x: string, a: nat,
                                            source: Node, targets: seq<Node>)
    requires a <= |algorithms|
    ensures forall route :: route in Gathered(env, algorithms, x, a, source, targets).0 ==>
              exists t :: t in targets && Dispatch(env, x, source, t) == Success(route)
    decreases |algorithms| - a
  {
    if a < |algorithms| {
      GatheredAreFound(env, algorithms, x, a + 1, source, targets);
      if algorithms[a] == x {
        var mine := Trials(env, algorithms, a, source, targets);
        forall route | route in mine.0
          ensures exists t :: t in targets && Dispatch(env, x, source, t) == Success(route)
        {
          AttemptsAreFound(t => Dispatch(env, algorithms[a], source, t), k => env.elapsed(a, k), targets, route);
        }
      }
    }
  }

  /** The hand-written search stores only real routes from the origin to
      one of the destinations. */
  lemma SearchRoutesAreRoutes(env: Env, algorithms: seq<string>, source: Node, targets: seq<Node>)
    requires "bidirectional_a_star" in algorithms
    ensures forall route :: route in CalculateRoutes(env, algorithms, source, targets).routes["bidirectional_a_star"] ==>
              exists t :: t in targets && IsRoute(env.g, source, t, route)
  {
    GatheredAreFound(env, algorithms, "bidirectional_a_star", 0, source, targets);
  }

  /** With a sound graph library, every route stored under any name runs
      along graph edges from the origin to one of the destinations. */
  lemma StoredRoutesAreRoutes(env: Env, algorithms: seq<string>, source: Node, targets: seq<Node>)
    requires LibrarySound(env)
    ensures forall x, route ::
              (x in CalculateRoutes(env, algorithms, source, targets).routes &&
               route in CalculateRoutes(env, algorithms, source, targets).routes[x]) ==>
              exists t :: t in targets && IsRoute(env.g, source, t, route)
  {
    var r := CalculateRoutes(env, algorithms, source, targets);
    forall x, route | x in r.routes && route in r.routes[x]
      ensures exists t :: t in targets && IsRoute(env.g, source, t, route)
    {
      GatheredAreFound(env, algorithms, x, 0, source, targets);
      var t :| t in targets && Dispatch(env, x, source, t) == Success(route);
    }
  }
}

=== FILE: collections.dfy ===
/**
 * Python slicing and a few facts about finite collections that several
 * modules share.
 */
module Collections {

  function Min(a: int, b: int): int { if a <= b then a else b }
  function Max(a: int, b: int): int { if a <= b then b else a }

  /** Python's `s[:n]`: a negative `n` counts from the end, and an `n`
      past the end takes everything. */
  function Prefix<T>(s: seq<T>, n: int): (r: seq<T>)
    ensures r <= s
    ensures n >= 0 ==> |r| == Min(n, |s|)
    ensures n < 0 ==> |r| == Max(0, |s| + n)
  {
    if n >= |s| then s
    else if n >= 0 then s[..n]
    else if |s| + n >= 0 then s[..|s| + n]
    else []
  }

  /** A bound at least as long as the sequence keeps all of it. */
  lemma PrefixAll<T>(s: seq<T>, n: int)
    requires n >= |s|
    ensures Prefix(s, n) == s
  {
  }

  /** A non-empty sequence is its front followed by its last element. */
  lemma SplitLast<T>(s: seq<T>)
    requires s != []
    ensures s == s[..|s| - 1] + [s[|s| - 1]]
  {
  }

  lemma AppendAssoc<T>(a: seq<T>, b: seq<T>, c: seq<T>)
    ensures a + b + c == a + (b + c)
  {
  }

  lemma AppendEmpty<T>(a: seq<T>)
    ensures a + [] == a
  {
  }

  lemma DropDrop<T>(s: seq<T>, i: nat, j: nat)
    requires i + j <= |s|
    ensures s[i..][j..] == s[i + j..]
  {
  }

  /** Fewer elements in a subset. */
  lemma SubsetCard<T>(a: set<T>, b: set<T>)
    requires a <= b
    ensures |a| <= |b|
  {
    assert b == a + (b - a);
  }

  /** Number of occurrences of `x` in `s`. */
  function Count<T(==)>(s: seq<T>, x: T): (r: nat)
    ensures r <= |s|
    ensures r == 0 <==> x !in s
  {
    if s == [] then 0 else (if s[0] == x then 1 else 0) + Count(s[1..], x)
  }
}

=== FILE: decimal.dfy ===
/** Decimal rendering of integers, as Python's `str(n)` and `f"{n:02d}"` produce it. */
module Decimal {

  /** The character of a single decimal digit. */
  function DigitChar(d: nat): (c: char)
    requires d < 10
    ensures '0' <= c <= '9'
    ensures c as int - '0' as int == d
  {
    ['0', '1', '2', '3', '4', '5', '6', '7', '8', '9'][d]
  }

  predicate IsDigit(c: char) {
    '0' <= c <= '9'
  }

  /** `str(n)` for a non-negative integer: no sign and no leading zeros. */
  function NatToString(n: nat): (s: string)
    ensures |s| >= 1
    ensures forall i :: 0 <= i < |s| ==> IsDigit(s[i])
    ensures n >= 10 ==> s[0] != '0'
    ensures n < 10 <==> |s| == 1
  {
    if n < 10 then [DigitChar(n)] else NatToString(n / 10) + [DigitChar(n % 10)]
  }

  /** `str(i)` for any integer: a leading minus sign for negative values. */
  function IntToString(i: int): (s: string)
    ensures |s| >= 1
    ensures i < 0 <==> s[0] == '-'
    ensures s[0] == '-' || IsDigit(s[0])
    ensures forall k :: 1 <= k < |s| ==> IsDigit(s[k])
  {
    if i < 0 then "-" + NatToString(-i) else NatToString(i)
  }

  /** `f"{i:02d}"` for a non-negative integer: at least two digits, zero-padded on the left. */
  function Pad2(i: nat): (s: string)
    ensures |s| >= 2
    ensures forall k :: 0 <= k < |s| ==> IsDigit(s[k])
    ensures i < 10 ==> s == ['0', DigitChar(i)]
    ensures i >= 10 ==> s == NatToString(i)
  {
    if i < 10 then "0" + NatToString(i) else NatToString(i)
  }

  /** The value of a digit string; the partner of `NatToString`. */
  function ParseNat(s: string): (n: nat)
    requires forall i :: 0 <= i < |s| ==> IsDigit(s[i])
  {
    if s == [] then 0
    else
      var last := s[|s| - 1];
      assert IsDigit(last);
      ParseNat(s[..|s| - 1]) * 10 + (last as int - '0' as int)
  }

  /** Parsing undoes printing. */
  lemma {:induction false} ParseNatToString(n: nat)
    ensures ParseNat(NatToString(n)) == n
  {
    var s := NatToString(n);
    if n >= 10 {
      assert s[..|s| - 1] == NatToString(n / 10);
      ParseNatToString(n / 10);
    }
  }

  /** Distinct numbers print differently. */
  lemma NatToStringInjective(a: nat, b: nat)
    requires NatToString(a) == NatToString(b)
    ensures a == b
  {
    ParseNatToString(a);
    ParseNatToString(b);
  }

  /** Distinct numbers pad differently, so the suffixes `_01`, `_02`, ... never collide. */
  lemma Pad2Injective(a: nat, b: nat)
    requires Pad2(a) == Pad2(b)
    ensures a == b
  {
    if a >= 10 && b >= 10 {
      NatToStringInjective(a, b);
    }
  }

  /** Printing an integer and reading it back (sign included) gives it back. */
  function ParseInt(s: string): (i: int)
    requires |s| >= 1
    requires forall k :: 1 <= k < |s| ==> IsDigit(s[k])
    requires s[0] == '-' || IsDigit(s[0])
  {
    if s[0] == '-' then 0 - ParseNat(s[1..]) as int else ParseNat(s)
  }

  lemma ParseIntToString(i: int)
    ensures ParseInt(IntToString(i)) == i
  {
    var s := IntToString(i);
    if i < 0 {
      var digits := NatToString(-i);
      assert s == "-" + digits;
      assert s[1..] == digits;
      ParseNatToString(-i);
      assert ParseInt(s) == 0 - ParseNat(digits) as int;
    } else {
      assert s == NatToString(i);
      ParseNatToString(i);
    }
  }
}

=== FILE: frontier.dfy ===
/**
 * One side of the bidirectional search: a priority queue, the best cost found per node and
 * the parent links, grown forward from the source over outgoing edges or backward from the
 * target over incoming edges.
 */
module Frontiers {
  import opened Wrappers
  import opened Graph
  import opened PriorityQueue

  /** An estimate of the remaining distance between two nodes (straight-line in the source). */
  type Heuristic = (Node, Node) -> nat

  /** Which way a frontier grows: forward over successors, backward over predecessors. */
  datatype Direction = Forward | Backward

  /** One side of the search: its queue, the best cost found per node and the parent links. */
  datatype Frontier = Frontier(queue: seq<Entry>, visited: map<Node, nat>, parents: map<Node, Option<Node>>)

  /** The nodes one step away in direction `dir`, each once. */
  function Neighbors(g: Graph, dir: Direction, u: Node): (r: seq<Node>)
    ensures forall v :: v in r <==> Linked(g, dir, u, v)
    ensures Distinct(r)
  {
    match dir
    case Forward => Successors(g, u)
    case Backward => Predecessors(g, u)
  }

  /** `p` can be the parent of `n` in direction `dir`: an edge `p -> n` forward, `n -> p` backward. */
  ghost predicate Linked(g: Graph, dir: Direction, p: Node, n: Node) {
    match dir
    case Forward => HasEdge(g, p, n)
    case Backward => HasEdge(g, n, p)
  }

  /** The weight of the step from `u` to its neighbour `v`, read off the edge in graph direction. */
  function StepLength(g: Graph, dir: Direction, u: Node, v: Node): nat {
    match dir
    case Forward => Length(g, u, v)
    case Backward => Length(g, v, u)
  }

  /**
   * The frontier invariant: the root has cost 0 and no parent, every other reached node has
   * a reached parent joined to it by an edge, every queued node has been reached, and the
   * queue is ordered.
   */
  ghost predicate Valid(g: Graph, dir: Direction, root: Node, f: Frontier) {
    && root in f.visited && f.visited[root] == 0
    && f.parents.Keys == f.visited.Keys
    && f.parents[root] == None
    && (forall n :: n in f.parents && n != root ==>
          f.parents[n].Some? && f.parents[n].value in f.visited && Linked(g, dir, f.parents[n].value, n))
    && (forall k :: 0 <= k < |f.queue| ==> f.queue[k].node in f.visited)
    && Sorted(f.queue)
  }

  /** Known costs are never forgotten and only ever go down. */
  ghost predicate CostsOnlyDecrease(before: map<Node, nat>, after: map<Node, nat>) {
    before.Keys <= after.Keys && forall n :: n in before ==> after[n] <= before[n]
  }

  /**
   * Every queued entry carries the priority its cost plus the heuristic towards `goal`, and
   * is no cheaper than the cost recorded for its node.
   */
  ghost predicate Keyed(h: Heuristic, goal: Node, f: Frontier) {
    forall e :: e in f.queue ==>
      e.priority == e.cost + h(e.node, goal) && e.node in f.visited && f.visited[e.node] <= e.cost
  }

  /**
   * `after` is `before` with the steps from `cur`, reached at `curCost`, to nodes of `nbs`
   * relaxed. Nothing left the queue, and every entry added is a node of `nbs` queued at its
   * cost through `cur`, which beat the cost known before. Every node that is new or got
   * cheaper now has that cost and `cur` as parent; every node whose cost stayed the same
   * keeps its parent.
   */
  ghost predicate RelaxedFrom(g: Graph, dir: Direction, cur: Node, curCost: nat, nbs: seq<Node>,
                              before: Frontier, after: Frontier) {
    && multiset(before.queue) <= multiset(after.queue)
    && (forall e :: e in multiset(after.queue) - multiset(before.queue) ==>
          && e.node in nbs
          && e.cost == curCost + StepLength(g, dir, cur, e.node)
          && (e.node !in before.visited || e.cost < before.visited[e.node]))
    && (forall v :: v in after.visited && v in after.parents
                    && (v !in before.visited || after.visited[v] < before.visited[v]) ==>
          && v in nbs
          && after.visited[v] == curCost + StepLength(g, dir, cur, v)
          && after.parents[v] == Some(cur))
    && (forall v :: v in before.visited && v in before.parents && v in after.visited && v in after.parents
                    && after.visited[v] == before.visited[v] ==>
          after.parents[v] == before.parents[v])
  }

  /** Relaxing `n0` and then `rest` is relaxing `[n0] + rest`. */
  lemma RelaxedChain(g: Graph, dir: Direction, cur: Node, curCost: nat, n0: Node, rest: seq<Node>,
                     f: Frontier, f': Frontier, r: Frontier)
    requires RelaxedFrom(g, dir, cur, curCost, [n0], f, f')
    requires RelaxedFrom(g, dir, cur, curCost, rest, f', r)
    requires CostsOnlyDecrease(f.visited, f'.visited) && CostsOnlyDecrease(f'.visited, r.visited)
    requires f.parents.Keys == f.visited.Keys && f'.parents.Keys == f'.visited.Keys
    requires r.parents.Keys == r.visited.Keys
    ensures RelaxedFrom(g, dir, cur, curCost, [n0] + rest, f, r)
  {
    var nbs := [n0] + rest;
    assert forall v :: v in nbs <==> v == n0 || v in rest;
    var a, b, c := multiset(f.queue), multiset(f'.queue), multiset(r.queue);
    forall e | e in c - a
      ensures && e.node in nbs
              && e.cost == curCost + StepLength(g, dir, cur, e.node)
              && (e.node !in f.visited || e.cost < f.visited[e.node])
    {
      if e in c - b {
        assert e.node !in f'.visited || e.cost < f'.visited[e.node];
      } else {
        assert e in b - a;
      }
    }
    forall v | v in r.visited && v in r.parents && (v !in f.visited || r.visited[v] < f.visited[v])
      ensures && v in nbs
              && r.visited[v] == curCost + StepLength(g, dir, cur, v)
              && r.parents[v] == Some(cur)
    {
      if v in f'.visited && r.visited[v] == f'.visited[v] {
        assert v !in f.visited || f'.visited[v] < f.visited[v];
      }
    }
  }

  /**
   * Relaxes the step `cur -> nb`: when `nb` is new or the step offers a strictly cheaper cost,
   * record that cost, queue `nb` with priority cost + heuristic towards `goal`, and make
   * `cur` its parent.
   */
  function Relax(g: Graph, h: Heuristic, dir: Direction, ghost root: Node, goal: Node,
                 cur: Node, nb: Node, f: Frontier): (r: Frontier)
    requires Valid(g, dir, root, f) && cur in f.visited && Linked(g, dir, cur, nb)
    ensures Valid(g, dir, root, r)
    ensures CostsOnlyDecrease(f.visited, r.visited)
    ensures r.visited.Keys == f.visited.Keys + {nb}
    ensures r.visited[nb] <= f.visited[cur] + StepLength(g, dir, cur, nb)
    ensures forall n :: n in f.visited && n != nb ==> r.visited[n] == f.visited[n]
    ensures r.visited[cur] == f.visited[cur]
    ensures r.visited[nb] != f.visited[cur] + StepLength(g, dir, cur, nb) ==> r == f
  {
    var cost := f.visited[cur] + StepLength(g, dir, cur, nb);
    if nb !in f.visited || cost < f.visited[nb] then
      var r := Improve(h, goal, cur, nb, cost, f);
      assert forall k :: 0 <= k < |r.queue| ==> r.queue[k] in r.queue;
      r
    else
      f
  }

  /** Records `cost` for `nb` with parent `cur`, and queues `nb` keyed towards `goal`. */
  function Improve(h: Heuristic, goal: Node, cur: Node, nb: Node, cost: nat, f: Frontier): (r: Frontier)
    requires Sorted(f.queue)
    ensures Sorted(r.queue)
    ensures r.visited == f.visited[nb := cost] && r.parents == f.parents[nb := Some(cur)]
    ensures multiset(r.queue) == multiset(f.queue) + multiset{Entry(cost + h(nb, goal), cost, nb)}
    ensures forall x :: x in r.queue <==> x == Entry(cost + h(nb, goal), cost, nb) || x in f.queue
  {
    Frontier(Push(f.queue, Entry(cost + h(nb, goal), cost, nb)), f.visited[nb := cost], f.parents[nb := Some(cur)])
  }

  /** A relaxation either records the improvement the step offers or leaves the frontier alone. */
  lemma RelaxCases(g: Graph, h: Heuristic, dir: Direction, root: Node, goal: Node,
                   cur: Node, nb: Node, f: Frontier, cost: nat)
    requires Valid(g, dir, root, f) && cur in f.visited && Linked(g, dir, cur, nb)
    requires cost == f.visited[cur] + StepLength(g, dir, cur, nb)
    ensures nb !in f.visited || cost < f.visited[nb] ==>
              Relax(g, h, dir, root, goal, cur, nb, f) == Improve(h, goal, cur, nb, cost, f)
    ensures nb in f.visited && cost >= f.visited[nb] ==> Relax(g, h, dir, root, goal, cur, nb, f) == f
  {
  }

  /**
   * A relaxation changes the frontier exactly when the step offers `nb` a first or strictly
   * cheaper cost, and then it makes `cur` the parent of `nb` and queues exactly one entry
   * for `nb`, keyed by that cost plus the heuristic towards `goal`.
   */
  lemma RelaxQueues(g: Graph, h: Heuristic, dir: Direction, root: Node, goal: Node,
                    cur: Node, nb: Node, f: Frontier)
    requires Valid(g, dir, root, f) && cur in f.visited && Linked(g, dir, cur, nb)
    ensures var r := Relax(g, h, dir, root, goal, cur, nb, f);
            r != f <==> nb !in f.visited || f.visited[cur] + StepLength(g, dir, cur, nb) < f.visited[nb]
    ensures var r := Relax(g, h, dir, root, goal, cur, nb, f);
            r != f ==> && r.parents[nb] == Some(cur)
                       && multiset(r.queue) == multiset(f.queue) + multiset{Entry(r.visited[nb] + h(nb, goal), r.visited[nb], nb)}
  {
    var cost := f.visited[cur] + StepLength(g, dir, cur, nb);
    var r := Relax(g, h, dir, root, goal, cur, nb, f);
    if nb !in f.visited || cost < f.visited[nb] {
      var i := Improve(h, goal, cur, nb, cost, f);
      RelaxCases(g, h, dir, root, goal, cur, nb, f, cost);
      var e := Entry(cost + h(nb, goal), cost, nb);
      assert i.visited[nb] == cost && i.parents[nb] == Some(cur) by {
        assert i.visited == f.visited[nb := cost] && i.parents == f.parents[nb := Some(cur)];
      }
      assert Entry(r.visited[nb] + h(nb, goal), r.visited[nb], nb) == e;
      assert multiset(r.queue) == multiset(f.queue) + multiset{e};
      assert i != f by {
        assert nb !in f.visited || i.visited[nb] != f.visited[nb];
      }
    }
  }

  /** A relaxation only adds to the queue, and only what `RelaxedFrom` allows. */
  lemma RelaxOnlyAdds(g: Graph, h: Heuristic, dir: Direction, root: Node, goal: Node,
                      cur: Node, nb: Node, f: Frontier)
    requires Valid(g, dir, root, f) && cur in f.visited && Linked(g, dir, cur, nb)
    ensures RelaxedFrom(g, dir, cur, f.visited[cur], [nb], f, Relax(g, h, dir, root, goal, cur, nb, f))
  {
    var cost := f.visited[cur] + StepLength(g, dir, cur, nb);
    if nb !in f.visited || cost < f.visited[nb] {
      var r := Relax(g, h, dir, root, goal, cur, nb, f);
      RelaxCases(g, h, dir, root, goal, cur, nb, f, cost);
      ImprovementRelaxes(g, h, dir, goal, cur, nb, cost, f, r);
    } else {
      SameRelaxes(g, dir, cur, f.visited[cur], [nb], f);
    }
  }

  /** A relaxation keeps every queued entry keyed towards `goal`. */
  lemma RelaxKeepsKeys(g: Graph, h: Heuristic, dir: Direction, root: Node, goal: Node,
                       cur: Node, nb: Node, f: Frontier)
    requires Valid(g, dir, root, f) && cur in f.visited && Linked(g, dir, cur, nb)
    requires Keyed(h, goal, f)
    ensures Keyed(h, goal, Relax(g, h, dir, root, goal, cur, nb, f))
  {
    var cost := f.visited[cur] + StepLength(g, dir, cur, nb);
    if nb !in f.visited || cost < f.visited[nb] {
      var r := Relax(g, h, dir, root, goal, cur, nb, f);
      RelaxCases(g, h, dir, root, goal, cur, nb, f, cost);
      var e := Entry(cost + h(nb, goal), cost, nb);
      forall x | x in r.queue
        ensures x.priority == x.cost + h(x.node, goal) && x.node in r.visited && r.visited[x.node] <= x.cost
      {
        if x != e {
          assert x in f.queue;
        }
      }
    }
  }

  /** Recording a first or cheaper cost for `nb` through `cur` and queueing it is a relaxation. */
  lemma ImprovementRelaxes(g: Graph, h: Heuristic, dir: Direction, goal: Node, cur: Node, nb: Node,
                           cost: nat, f: Frontier, r: Frontier)
    requires cur in f.visited && f.parents.Keys == f.visited.Keys
    requires cost == f.visited[cur] + StepLength(g, dir, cur, nb)
    requires nb !in f.visited || cost < f.visited[nb]
    requires r.visited == f.visited[nb := cost] && r.parents == f.parents[nb := Some(cur)]
    requires multiset(r.queue) == multiset(f.queue) + multiset{Entry(cost + h(nb, goal), cost, nb)}
    ensures RelaxedFrom(g, dir, cur, f.visited[cur], [nb], f, r)
  {
    assert multiset(r.queue) - multiset(f.queue) == multiset{Entry(cost + h(nb, goal), cost, nb)};
  }

  /** Leaving the frontier as it is relaxes any steps that offer nothing cheaper. */
  lemma SameRelaxes(g: Graph, dir: Direction, cur: Node, curCost: nat, nbs: seq<Node>, f: Frontier)
    ensures RelaxedFrom(g, dir, cur, curCost, nbs, f, f)
  {
    assert multiset(f.queue) - multiset(f.queue) == multiset{};
  }

  /** Relaxes every step from `cur` to the nodes of `nbs`, in order. */
  function RelaxAll(g: Graph, h: Heuristic, dir: Direction, ghost root: Node, goal: Node,
                    cur: Node, nbs: seq<Node>, f: Frontier): (r: Frontier)
    requires Valid(g, dir, root, f) && cur in f.visited
    requires forall v :: v in nbs ==> Linked(g, dir, cur, v)
    ensures Valid(g, dir, root, r)
    ensures CostsOnlyDecrease(f.visited, r.visited)
    ensures forall v :: v in r.visited <==> v in f.visited || v in nbs
    ensures r.visited[cur] == f.visited[cur]
    ensures forall v :: v in nbs ==> r.visited[v] <= r.visited[cur] + StepLength(g, dir, cur, v)
    decreases |nbs|
  {
    if nbs == [] then f
    else
      var f' := Relax(g, h, dir, root, goal, cur, nbs[0], f);
      var r := RelaxAll(g, h, dir, root, goal, cur, nbs[1..], f');
      assert forall v :: v in nbs <==> v == nbs[0] || v in nbs[1..];
      assert r.visited[nbs[0]] <= f'.visited[nbs[0]];
      r
  }

  /**
   * Relaxing every neighbour only adds to the queue: each new entry is a neighbour at its
   * cost through `cur`, and each node that got cheaper has `cur` as its parent.
   */
  lemma {:induction false} RelaxAllOnlyAdds(g: Graph, h: Heuristic, dir: Direction, root: Node, goal: Node,
                                            cur: Node, nbs: seq<Node>, f: Frontier)
    requires Valid(g, dir, root, f) && cur in f.visited
    requires forall v :: v in nbs ==> Linked(g, dir, cur, v)
    ensures RelaxedFrom(g, dir, cur, f.visited[cur], nbs, f, RelaxAll(g, h, dir, root, goal, cur, nbs, f))
    decreases |nbs|, 1
  {
    if nbs == [] {
      SameRelaxes(g, dir, cur, f.visited[cur], nbs, f);
    } else {
      RelaxFirstThenRest(g, h, dir, root, goal, cur, nbs, f);
      assert nbs == [nbs[0]] + nbs[1..];
    }
  }

  /** The inductive step: relaxing the first neighbour, then the rest. */
  lemma {:induction false} RelaxFirstThenRest(g: Graph, h: Heuristic, dir: Direction, root: Node, goal: Node,
                                              cur: Node, nbs: seq<Node>, f: Frontier)
    requires Valid(g, dir, root, f) && cur in f.visited
    requires forall v :: v in nbs ==> Linked(g, dir, cur, v)
    requires nbs != []
    ensures RelaxedFrom(g, dir, cur, f.visited[cur], [nbs[0]] + nbs[1..], f,
                        RelaxAll(g, h, dir, root, goal, cur, nbs[1..], Relax(g, h, dir, root, goal, cur, nbs[0], f)))
    decreases |nbs|, 0
  {
    var f' := Relax(g, h, dir, root, goal, cur, nbs[0], f);
    var r := RelaxAll(g, h, dir, root, goal, cur, nbs[1..], f');
    assert forall v :: v in nbs[1..] ==> v in nbs;
    RelaxOnlyAdds(g, h, dir, root, goal, cur, nbs[0], f);
    RelaxAllOnlyAdds(g, h, dir, root, goal, cur, nbs[1..], f');
    RelaxedChain(g, dir, cur, f.visited[cur], nbs[0], nbs[1..], f, f', r);
  }

  /** Relaxing every neighbour keeps every queued entry keyed towards `goal`. */
  lemma {:induction false} RelaxAllKeepsKeys(g: Graph, h: Heuristic, dir: Direction, root: Node, goal: Node,
                                             cur: Node, nbs: seq<Node>, f: Frontier)
    requires Valid(g, dir, root, f) && cur in f.visited
    requires forall v :: v in nbs ==> Linked(g, dir, cur, v)
    requires Keyed(h, goal, f)
    ensures Keyed(h, goal, RelaxAll(g, h, dir, root, goal, cur, nbs, f))
    decreases |nbs|
  {
    if nbs != [] {
      var f' := Relax(g, h, dir, root, goal, cur, nbs[0], f);
      assert forall v :: v in nbs[1..] ==> v in nbs;
      RelaxKeepsKeys(g, h, dir, root, goal, cur, nbs[0], f);
      RelaxAllKeepsKeys(g, h, dir, root, goal, cur, nbs[1..], f');
    }
  }

  /** `u` still has an entry in the queue: it will be popped and expanded later. */
  ghost predicate Pending(f: Frontier, u: Node) {
    exists e :: e in f.queue && e.node == u
  }

  /**
   * Nothing reached has been dropped unexplored: every reached node is still queued, or all
   * its neighbours in direction `dir` have been reached.
   */
  ghost predicate Explored(g: Graph, dir: Direction, f: Frontier) {
    forall u :: u in f.visited ==> Pending(f, u) || forall v :: Linked(g, dir, u, v) ==> v in f.visited
  }

  /** A queued node stays queued when the queue's multiset only grows. */
  lemma PendingKept(a: Frontier, b: Frontier, u: Node)
    requires multiset(a.queue) <= multiset(b.queue) && Pending(a, u)
    ensures Pending(b, u)
  {
    var e :| e in a.queue && e.node == u;
    assert e in multiset(a.queue);
  }

  /** A relaxation that reaches `nb` for the first time queues it. */
  lemma RelaxQueuesNew(g: Graph, h: Heuristic, dir: Direction, root: Node, goal: Node,
                       cur: Node, nb: Node, f: Frontier)
    requires Valid(g, dir, root, f) && cur in f.visited && Linked(g, dir, cur, nb)
    ensures nb !in f.visited ==> Pending(Relax(g, h, dir, root, goal, cur, nb, f), nb)
  {
    if nb !in f.visited {
      RelaxQueues(g, h, dir, root, goal, cur, nb, f);
      var r := Relax(g, h, dir, root, goal, cur, nb, f);
      var e := Entry(r.visited[nb] + h(nb, goal), r.visited[nb], nb);
      assert e in multiset(r.queue);
    }
  }

  /** Relaxing every neighbour queues every node it reaches for the first time. */
  lemma {:induction false} RelaxAllQueuesNew(g: Graph, h: Heuristic, dir: Direction, root: Node, goal: Node,
                                             cur: Node, nbs: seq<Node>, f: Frontier)
    requires Valid(g, dir, root, f) && cur in f.visited
    requires forall v :: v in nbs ==> Linked(g, dir, cur, v)
    ensures forall v :: v in RelaxAll(g, h, dir, root, goal, cur, nbs, f).visited && v !in f.visited ==>
              Pending(RelaxAll(g, h, dir, root, goal, cur, nbs, f), v)
    decreases |nbs|
  {
    if nbs != [] {
      var f' := Relax(g, h, dir, root, goal, cur, nbs[0], f);
      var r := RelaxAll(g, h, dir, root, goal, cur, nbs[1..], f');
      assert forall v :: v in nbs[1..] ==> v in nbs;
      RelaxQueuesNew(g, h, dir, root, goal, cur, nbs[0], f);
      RelaxAllQueuesNew(g, h, dir, root, goal, cur, nbs[1..], f');
      RelaxAllOnlyAdds(g, h, dir, root, goal, cur, nbs[1..], f');
      forall v | v in r.visited && v !in f.visited ensures Pending(r, v) {
        if v in f'.visited {
          PendingKept(f', r, v);
        }
      }
    }
  }

  /**
   * Follows parent links from `n` until a node without parent, for at most `fuel` links:
   * `[n, parent(n), parent(parent(n)), ..., root]`.
   */
  function Chain(parents: map<Node, Option<Node>>, n: Node, fuel: nat): (r: Option<seq<Node>>)
    ensures r.Some? ==> |r.value| >= 1 && r.value[0] == n
    ensures r.Some? ==> forall i :: 0 <= i < |r.value| - 1 ==>
                          r.value[i] in parents && parents[r.value[i]] == Some(r.value[i + 1])
    ensures r.Some? ==> r.value[|r.value| - 1] in parents && parents[r.value[|r.value| - 1]] == None
    decreases fuel
  {
    if fuel == 0 || n !in parents then None
    else
      match parents[n]
      case None => Some([n])
      case Some(p) =>
        match Chain(parents, p, fuel - 1)
        case None => None
        case Some(c) => Some([n] + c)
  }

  /** `path.reverse()`. */
  function Reverse<T>(xs: seq<T>): (r: seq<T>)
    ensures |r| == |xs|
    ensures forall i :: 0 <= i < |xs| ==> r[i] == xs[|xs| - 1 - i]
  {
    if xs == [] then [] else Reverse(xs[1..]) + [xs[0]]
  }
}

=== FILE: graph.dfy ===
/** The street network the searches run on: a directed graph whose edges may carry a `length`. */
module Graph {
  import opened Wrappers

  /** An opaque node identifier (an OpenStreetMap id). */
  type Node = int

  /** A directed edge `src -> dst`; `length` is absent when the edge has no such attribute. */
  datatype Edge = Edge(src: Node, dst: Node, length: Option<nat>)

  /** The exceptions a route computation can end in. */
  datatype SearchError =
    | NoPath        // networkx's NetworkXNoPath
    | NodeNotFound  // a source or target that is not a node of the graph
    | Unsupported   // the ValueError raised for an unknown algorithm name
    | OutOfFuel     // the search loop did not stop within the model's step bound
    | ParentCycle   // a parent walk did not reach its root within the model's step bound

  /** A directed graph: its node set and its edges in insertion order. */
  datatype Graph = Graph(nodes: set<Node>, edges: seq<Edge>)

  /** The graph has an edge `u -> v`. */
  ghost predicate HasEdge(g: Graph, u: Node, v: Node) {
    exists e :: e in g.edges && e.src == u && e.dst == v
  }

  /** No node is listed twice. */
  ghost predicate Distinct(r: seq<Node>) {
    forall i, j :: 0 <= i < j < |r| ==> r[i] != r[j]
  }

  /** `es[i]` is the first edge `u -> v` in `es`. */
  ghost predicate FirstEdge(es: seq<Edge>, u: Node, v: Node, i: int) {
    0 <= i < |es| && es[i].src == u && es[i].dst == v
    && forall k :: 0 <= k < i ==> !(es[k].src == u && es[k].dst == v)
  }

  /**
   * The heads of the edges leaving `u`, each once, in the order its first edge was added:
   * a repeated edge adds nothing to the adjacency of a directed graph.
   */
  function Heads(es: seq<Edge>, u: Node): (r: seq<Node>)
    ensures forall v :: v in r <==> exists e :: e in es && e.src == u && e.dst == v
    ensures Distinct(r)
    decreases |es|
  {
    if es == [] then []
    else
      var last := es[|es| - 1];
      var rest := Heads(es[..|es| - 1], u);
      assert forall e :: e in es <==> e == last || e in es[..|es| - 1];
      if last.src == u && last.dst !in rest then rest + [last.dst] else rest
  }

  /** The tails of the edges entering `v`, each once, in the order its first edge was added. */
  function Tails(es: seq<Edge>, v: Node): (r: seq<Node>)
    ensures forall u :: u in r <==> exists e :: e in es && e.src == u && e.dst == v
    ensures Distinct(r)
    decreases |es|
  {
    if es == [] then []
    else
      var last := es[|es| - 1];
      var rest := Tails(es[..|es| - 1], v);
      assert forall e :: e in es <==> e == last || e in es[..|es| - 1];
      if last.dst == v && last.src !in rest then rest + [last.src] else rest
  }

  /** A first edge within a prefix is the first edge of the whole list too, and conversely. */
  lemma FirstEdgeInPrefix(es: seq<Edge>, u: Node, v: Node, i: int)
    requires |es| > 0 && i < |es| - 1
    ensures FirstEdge(es, u, v, i) <==> FirstEdge(es[..|es| - 1], u, v, i)
  {
  }

  /** Of two listed heads, the one listed first is the one whose first edge was added first. */
  lemma {:induction false} HeadsInFirstOrder(es: seq<Edge>, u: Node, a: int, b: int, i: int, j: int)
    requires 0 <= a < b < |Heads(es, u)|
    requires FirstEdge(es, u, Heads(es, u)[a], i) && FirstEdge(es, u, Heads(es, u)[b], j)
    ensures i < j
    decreases |es|
  {
    var r := Heads(es, u);
    var pre := es[..|es| - 1];
    var rest := Heads(pre, u);
    if i < |es| - 1 && j < |es| - 1 {
      FirstEdgeInPrefix(es, u, r[a], i);
      FirstEdgeInPrefix(es, u, r[b], j);
      if b < |rest| {
        HeadsInFirstOrder(pre, u, a, b, i, j);
      }
    }
  }

  /** Of two listed tails, the one listed first is the one whose first edge was added first. */
  lemma {:induction false} TailsInFirstOrder(es: seq<Edge>, v: Node, a: int, b: int, i: int, j: int)
    requires 0 <= a < b < |Tails(es, v)|
    requires FirstEdge(es, Tails(es, v)[a], v, i) && FirstEdge(es, Tails(es, v)[b], v, j)
    ensures i < j
    decreases |es|
  {
    var r := Tails(es, v);
    var pre := es[..|es| - 1];
    var rest := Tails(pre, v);
    if i < |es| - 1 && j < |es| - 1 {
      FirstEdgeInPrefix(es, r[a], v, i);
      FirstEdgeInPrefix(es, r[b], v, j);
      if b < |rest| {
        TailsInFirstOrder(pre, v, a, b, i, j);
      }
    }
  }

  /** `G.successors(u)`: the nodes `v` with an edge `u -> v`, each once. */
  function Successors(g: Graph, u: Node): (r: seq<Node>)
    ensures forall v :: v in r <==> HasEdge(g, u, v)
    ensures Distinct(r)
  {
    Heads(g.edges, u)
  }

  /** `G.predecessors(v)`: the nodes `u` with an edge `u -> v`, each once. */
  function Predecessors(g: Graph, v: Node): (r: seq<Node>)
    ensures forall u :: u in r <==> HasEdge(g, u, v)
    ensures Distinct(r)
  {
    Tails(g.edges, v)
  }

  /** A pair added twice is listed once on either side. */
  lemma RepeatedEdgeListedOnce()
    ensures Successors(Graph({0, 1}, [Edge(0, 1, None), Edge(0, 1, Some(5))]), 0) == [1]
    ensures Predecessors(Graph({0, 1}, [Edge(0, 1, None), Edge(0, 1, Some(5))]), 1) == [0]
  {
    var es := [Edge(0, 1, None), Edge(0, 1, Some(5))];
    assert es[..1] == [Edge(0, 1, None)] && es[..1][..0] == [];
    assert Heads(es[..1], 0) == [1] && Tails(es[..1], 1) == [0];
    assert Heads(es, 0) == [1] && Tails(es, 1) == [0];
  }

  /**
   * The attribute record a directed graph keeps for the ordered pair `u -> v`. Adding an edge
   * that is already there updates its record, so a later `length` replaces an earlier one and
   * an addition without a `length` keeps the one already stored.
   */
  datatype EdgeAttrs = EdgeAttrs(length: Option<nat>)

  /** `es[i]` is the last edge `u -> v` in `es` that carries a length. */
  ghost predicate LastLength(es: seq<Edge>, u: Node, v: Node, i: int) {
    && 0 <= i < |es| && es[i].src == u && es[i].dst == v && es[i].length.Some?
    && forall j :: i < j < |es| && es[j].src == u && es[j].dst == v ==> es[j].length.None?
  }

  /** `G.get_edge_data(u, v)`: the record of the pair `u -> v` after all additions in `es`. */
  function EdgeData(es: seq<Edge>, u: Node, v: Node): (r: Option<EdgeAttrs>)
    ensures r.None? <==> forall e :: e in es ==> !(e.src == u && e.dst == v)
  {
    if es == [] then None
    else
      var rest := EdgeData(es[1..], u, v);
      assert forall e :: e in es <==> e == es[0] || e in es[1..];
      if es[0].src == u && es[0].dst == v then
        if rest.Some? && rest.value.length.Some? then rest else Some(EdgeAttrs(es[0].length))
      else rest
  }

  /** The record of `u -> v` has a length exactly when some addition of `u -> v` gave one, and then it is one of those. */
  lemma {:induction false} EdgeDataLength(es: seq<Edge>, u: Node, v: Node)
    ensures var r := EdgeData(es, u, v);
            r.Some? ==> (r.value.length.Some? <==> exists e :: e in es && e.src == u && e.dst == v && e.length.Some?)
    ensures var r := EdgeData(es, u, v);
            r.Some? && r.value.length.Some? ==> exists e :: e in es && e.src == u && e.dst == v && e.length == r.value.length
  {
    if es != [] {
      EdgeDataLength(es[1..], u, v);
      assert forall e :: e in es <==> e == es[0] || e in es[1..];
    }
  }

  /** `edge_data.get('length', 1)`: the weight the bidirectional search charges for `u -> v`. */
  function Length(g: Graph, u: Node, v: Node): (w: nat)
    ensures w != 1 ==> exists e :: e in g.edges && e.src == u && e.dst == v && e.length == Some(w)
    ensures (forall e :: e in g.edges && e.src == u && e.dst == v ==> e.length.None?) ==> w == 1
  {
    match EdgeData(g.edges, u, v)
    case None => 1
    case Some(a) =>
      EdgeDataLength(g.edges, u, v);
      a.length.GetOr(1)
  }

  /** The stored length of `u -> v` is the one given by the last addition that carries a length. */
  lemma {:induction false} EdgeDataIsLast(es: seq<Edge>, u: Node, v: Node, i: int)
    requires LastLength(es, u, v, i)
    ensures EdgeData(es, u, v) == Some(EdgeAttrs(es[i].length))
  {
    if i > 0 {
      assert LastLength(es[1..], u, v, i - 1);
      EdgeDataIsLast(es[1..], u, v, i - 1);
    } else {
      EdgeDataLength(es[1..], u, v);
      assert forall e :: e in es[1..] && e.src == u && e.dst == v ==> e.length.None? by {
        forall e | e in es[1..] && e.src == u && e.dst == v ensures e.length.None? {
          var j :| 0 <= j < |es[1..]| && es[1..][j] == e;
          assert es[j + 1] == e;
        }
      }
    }
  }

  /** A step costs the length the last addition of `u -> v` gave it. */
  lemma LengthOfLastEdge(g: Graph, u: Node, v: Node, i: int)
    requires LastLength(g.edges, u, v, i)
    ensures Length(g, u, v) == g.edges[i].length.value
  {
    EdgeDataIsLast(g.edges, u, v, i);
  }

  /** Adding `0 -> 1` without a length and then with length 5 costs 5; adding it again without a length keeps 5. */
  lemma LaterLengthWins()
    ensures Length(Graph({0, 1}, [Edge(0, 1, None), Edge(0, 1, Some(5))]), 0, 1) == 5
    ensures Length(Graph({0, 1}, [Edge(0, 1, Some(5)), Edge(0, 1, None)]), 0, 1) == 5
  {
    LengthOfLastEdge(Graph({0, 1}, [Edge(0, 1, None), Edge(0, 1, Some(5))]), 0, 1, 1);
    LengthOfLastEdge(Graph({0, 1}, [Edge(0, 1, Some(5)), Edge(0, 1, None)]), 0, 1, 0);
  }

  /** A node sequence whose consecutive nodes are joined by edges. */
  ghost predicate IsPath(g: Graph, p: seq<Node>) {
    |p| >= 1 && forall i :: 0 <= i < |p| - 1 ==> HasEdge(g, p[i], p[i + 1])
  }

  /** A path from `s` to `t`. */
  ghost predicate IsRoute(g: Graph, s: Node, t: Node, p: seq<Node>) {
    IsPath(g, p) && p[0] == s && p[|p| - 1] == t
  }

  /** The total weight of a node sequence, charging each step as `Length` does. */
  function PathCost(g: Graph, p: seq<Node>): nat
  {
    if |p| < 2 then 0 else Length(g, p[0], p[1]) + PathCost(g, p[1..])
  }
}

=== FILE: parent_order.dfy ===
/**
 * Why the parent links of a frontier never form a cycle. A parent is only ever installed
 * on a strict cost improvement over non-negative edge lengths, so ordering the reached
 * nodes by (cost, time of last improvement) puts every parent strictly before its child.
 * The walk from any node back to the root therefore visits distinct nodes and ends within
 * as many steps as there are reached nodes.
 */
module ParentOrder {
  import opened Wrappers
  import opened Graph
  import opened Frontiers
  import opened Collections

  /** `a` comes strictly before `b` in the order (cost, stamp). */
  ghost predicate Before(f: Frontier, stamp: map<Node, nat>, a: Node, b: Node) {
    && a in f.visited && b in f.visited && a in stamp && b in stamp
    && (f.visited[a] < f.visited[b] || (f.visited[a] == f.visited[b] && stamp[a] < stamp[b]))
  }

  /**
   * `stamp` records, for each reached node, a time below `clock` at which its cost last
   * improved, and every parent comes before its child.
   */
  ghost predicate Ordered(f: Frontier, stamp: map<Node, nat>, clock: nat) {
    && stamp.Keys == f.visited.Keys
    && (forall n :: n in stamp ==> stamp[n] < clock)
    && (forall n :: n in f.parents && f.parents[n].Some? ==> Before(f, stamp, f.parents[n].value, n))
  }

  /** A relaxation keeps the frontier ordered: the improved node takes a fresh stamp. */
  lemma RelaxOrdered(g: Graph, h: Heuristic, dir: Direction, root: Node, goal: Node,
                     cur: Node, nb: Node, f: Frontier, stamp: map<Node, nat>, clock: nat)
    returns (stamp': map<Node, nat>, clock': nat)
    requires Valid(g, dir, root, f) && cur in f.visited && Linked(g, dir, cur, nb)
    requires Ordered(f, stamp, clock)
    ensures Ordered(Relax(g, h, dir, root, goal, cur, nb, f), stamp', clock')
  {
    var r := Relax(g, h, dir, root, goal, cur, nb, f);
    if r == f {
      return stamp, clock;
    }
    stamp', clock' := stamp[nb := clock], clock + 1;
    assert r.parents == f.parents[nb := Some(cur)];
    assert nb !in f.visited || r.visited[nb] < f.visited[nb];
    forall n | n in r.parents && r.parents[n].Some?
      ensures Before(r, stamp', r.parents[n].value, n)
    {
      var p := r.parents[n].value;
      if n == nb {
        assert p == cur && cur != nb;
      } else {
        assert Before(f, stamp, p, n);
        if p == nb {
          assert r.visited[nb] < f.visited[nb];
        }
      }
    }
  }

  /** Relaxing a list of neighbours keeps the frontier ordered. */
  lemma {:induction false} RelaxAllOrdered(g: Graph, h: Heuristic, dir: Direction, root: Node, goal: Node,
                                           cur: Node, nbs: seq<Node>, f: Frontier, stamp: map<Node, nat>, clock: nat)
    returns (stamp': map<Node, nat>, clock': nat)
    requires Valid(g, dir, root, f) && cur in f.visited
    requires forall v :: v in nbs ==> Linked(g, dir, cur, v)
    requires Ordered(f, stamp, clock)
    ensures Ordered(RelaxAll(g, h, dir, root, goal, cur, nbs, f), stamp', clock')
    decreases |nbs|
  {
    if nbs == [] {
      return stamp, clock;
    }
    var f' := Relax(g, h, dir, root, goal, cur, nbs[0], f);
    var s1, c1 := RelaxOrdered(g, h, dir, root, goal, cur, nbs[0], f, stamp, clock);
    stamp', clock' := RelaxAllOrdered(g, h, dir, root, goal, cur, nbs[1..], f', s1, c1);
  }

  /** The nodes strictly before `n`. */
  ghost function Below(f: Frontier, stamp: map<Node, nat>, n: Node): set<Node> {
    set x | x in f.visited && Before(f, stamp, x, n)
  }

  /**
   * In an ordered frontier the parent walk from `n` reaches the root within
   * `|Below(n)| + 1` steps, and every node after `n` on it comes before `n`.
   */
  lemma {:induction false} ChainComplete(g: Graph, dir: Direction, root: Node, f: Frontier,
                                         stamp: map<Node, nat>, clock: nat, n: Node, fuel: nat)
    requires Valid(g, dir, root, f) && Ordered(f, stamp, clock)
    requires n in f.visited && fuel > |Below(f, stamp, n)|
    ensures Chain(f.parents, n, fuel).Some?
    ensures forall i :: 1 <= i < |Chain(f.parents, n, fuel).value| ==>
              Before(f, stamp, Chain(f.parents, n, fuel).value[i], n)
    decreases fuel
  {
    match f.parents[n]
    case None =>
    case Some(p) =>
      assert Before(f, stamp, p, n);
      assert Below(f, stamp, p) + {p} <= Below(f, stamp, n);
      assert p !in Below(f, stamp, p);
      assert |Below(f, stamp, p) + {p}| == |Below(f, stamp, p)| + 1;
      SubsetCard(Below(f, stamp, p) + {p}, Below(f, stamp, n));
      ChainComplete(g, dir, root, f, stamp, clock, p, fuel - 1);
      var c := Chain(f.parents, p, fuel - 1).value;
      assert Chain(f.parents, n, fuel).value == [n] + c;
  }

  /** The whole walk fits in the number of reached nodes. */
  lemma BelowBound(f: Frontier, stamp: map<Node, nat>, n: Node)
    requires n in f.visited
    ensures |Below(f, stamp, n)| < |f.visited|
  {
    assert Below(f, stamp, n) + {n} <= f.visited.Keys;
    SubsetCard(Below(f, stamp, n) + {n}, f.visited.Keys);
  }
}

=== FILE: pgrouting.dfy ===
/**
 * The pgRouting front end of the web application: the SQL text `build_query` sends for one
 * source and target, and the per-target loop of `calculate_route` that collects the rows
 * the database returns and adds up the elapsed times.
 */
module PgRouting {
  import opened Wrappers
  import opened Decimal
  import opened Collections

  /** `ValueError("Algoritmo inválido.")`. */
  datatype QueryError = InvalidAlgorithm

  /** The pgRouting function behind an algorithm name; the bidirectional variants have none. */
  function FunctionFor(alg: string): (r: Option<string>)
    ensures r.Some? <==> alg == "dijkstra" || alg == "astar" || alg == "bellman_ford"
    ensures alg == "dijkstra" ==> r == Some("pgr_dijkstra")
    ensures alg == "astar" ==> r == Some("pgr_astar")
    ensures alg == "bellman_ford" ==> r == Some("pgr_bellmanFord")
  {
    if alg == "dijkstra" then Some("pgr_dijkstra")
    else if alg == "astar" then Some("pgr_astar")
    else if alg == "bellman_ford" then Some("pgr_bellmanFord")
    else None
  }

  /**
   * The shape of the query text: the fixed text before the function name, between the name
   * and the source, between source and target, and after the target.
   */
  datatype Layout = Layout(head: string, mid: string, sep: string, tail: string)

  /** The text of `build_query`, with the line breaks and indentation of the source. */
  const Pgr: Layout := Layout(
    "\n        SELECT * FROM ",
    "(" + "\n            'SELECT id, source, target, cost, reverse_cost " + "FROM ways" + "',\n            ",
    ", ",
    ", " + "directed := true" + "\n        );\n        ")

  /** The function name ends at an opening parenthesis, each number at a comma. */
  predicate Delimited(l: Layout) {
    |l.mid| >= 1 && l.mid[0] == '(' && |l.sep| >= 1 && l.sep[0] == ',' && |l.tail| >= 1 && l.tail[0] == ','
  }

  /** The text of a layout filled with a function name, a source and a target. */
  function Render(l: Layout, fn: string, source: int, target: int): string {
    l.head + fn + l.mid + IntToString(source) + l.sep + IntToString(target) + l.tail
  }

  /** The query text of a function: it starts with the head, the function name and `(`. */
  function QueryText(fn: string, source: int, target: int): (q: string)
    ensures Pgr.head + fn + "(" <= q
  {
    RenderStart(Pgr, fn, source, target);
    Render(Pgr, fn, source, target)
  }

  /** `build_query`: the SQL text, or `InvalidAlgorithm` for a name with no pgRouting function. */
  function BuildQuery(alg: string, source: int, target: int): (r: Result<string, QueryError>)
    ensures r.Failure? <==> FunctionFor(alg).None?
    ensures r.Success? ==> Pgr.head + FunctionFor(alg).value + "(" <= r.value
  {
    match FunctionFor(alg)
    case None => Failure(InvalidAlgorithm)
    case Some(f) => Success(QueryText(f, source, target))
  }

  /** `needle` occurs as a contiguous part of `hay`. */
  predicate Infix(needle: string, hay: string) {
    exists k :: 0 <= k <= |hay| && needle <= hay[k..]
  }

  /** The three fields a query carries. */
  datatype Request = Request(fn: string, source: int, target: int)

  /** The longest prefix of `s` without the character `c`. */
  function TakeUntil(s: string, c: char): (r: string)
    ensures r <= s && c !in r
    ensures |r| < |s| ==> s[|r|] == c
  {
    if s == [] || s[0] == c then [] else [s[0]] + TakeUntil(s[1..], c)
  }

  /** Text that `IntToString` can produce, so that `ParseInt` accepts it. */
  predicate IsIntText(s: string) {
    |s| >= 1 && (s[0] == '-' || IsDigit(s[0])) && forall k :: 1 <= k < |s| ==> IsDigit(s[k])
  }

  /** Reads the function, source and target back out of a text of layout `l`; the partner of `Render`. */
  function Parse(l: Layout, q: string): (r: Option<Request>)
    ensures r.Some? ==> l.head <= q && |l.tail| <= |q| && q[|q| - |l.tail|..] == l.tail
  {
    if !(l.head <= q) then None
    else
      var r1 := q[|l.head|..];
      var fn := TakeUntil(r1, '(');
      var r2 := r1[|fn|..];
      if !(l.mid <= r2) then None
      else
        var r3 := r2[|l.mid|..];
        var src := TakeUntil(r3, ',');
        var r4 := r3[|src|..];
        if !(l.sep <= r4) then None
        else
          var r5 := r4[|l.sep|..];
          var tgt := TakeUntil(r5, ',');
          var r6 := r5[|tgt|..];
          if r6 != l.tail || !IsIntText(src) || !IsIntText(tgt) then None
          else
            var o2 := |l.head| + |fn|;
            var o3 := o2 + |l.mid|;
            var o4 := o3 + |src|;
            var o5 := o4 + |l.sep|;
            DropDrop(q, |l.head|, |fn|);
            DropDrop(q, o2, |l.mid|);
            DropDrop(q, o3, |src|);
            DropDrop(q, o4, |l.sep|);
            DropDrop(q, o5, |tgt|);
            Some(Request(fn, ParseInt(src), ParseInt(tgt)))
  }

  /** Reads a query text back. */
  function ParseQuery(q: string): Option<Request> {
    Parse(Pgr, q)
  }

  /** Splitting at the first `c` finds the part before it when that part has no `c`. */
  lemma {:induction false} TakeUntilJoin(a: string, b: string, c: char)
    requires c !in a && |b| >= 1 && b[0] == c
    ensures TakeUntil(a + b, c) == a
    ensures (a + b)[|a|..] == b
  {
    if a != [] {
      assert (a + b)[1..] == a[1..] + b;
      TakeUntilJoin(a[1..], b, c);
    } else {
      assert a + b == b;
    }
  }

  /** Printed integers hold no comma. */
  lemma IntTextHasNoComma(i: int)
    ensures ',' !in IntToString(i) && IsIntText(IntToString(i))
  {
  }

  /** A rendered text starts with the head, the function name and the parenthesis that opens `mid`. */
  lemma RenderStart(l: Layout, fn: string, source: int, target: int)
    requires Delimited(l)
    ensures l.head + fn + "(" <= Render(l, fn, source, target)
  {
    var rest := l.mid[1..] + IntToString(source) + l.sep + IntToString(target) + l.tail;
    assert l.mid == "(" + l.mid[1..];
    assert Render(l, fn, source, target) == (l.head + fn + "(") + rest;
  }

  /** The two number fields read back from the part after `mid`. */
  lemma ParseFields(l: Layout, s: string, t: string)
    requires Delimited(l) && ',' !in s && ',' !in t
    ensures var r3 := s + l.sep + t + l.tail;
            var src := TakeUntil(r3, ',');
            && src == s
            && l.sep <= r3[|src|..]
            && TakeUntil(r3[|src|..][|l.sep|..], ',') == t
            && r3[|src|..][|l.sep|..][|t|..] == l.tail
  {
    var rest := l.sep + t + l.tail;
    assert s + l.sep + t + l.tail == s + rest;
    TakeUntilJoin(s, rest, ',');
    assert rest[|l.sep|..] == t + l.tail;
    TakeUntilJoin(t, l.tail, ',');
  }

  /** Reading a rendered text back finds the function name and the two number fields. */
  lemma ParseSplits(l: Layout, fn: string, s: string, t: string)
    requires Delimited(l) && '(' !in fn && ',' !in s && ',' !in t
    ensures var q := l.head + fn + l.mid + s + l.sep + t + l.tail;
            var r1 := q[|l.head|..];
            && l.head <= q
            && TakeUntil(r1, '(') == fn
            && l.mid <= r1[|fn|..]
            && r1[|fn|..][|l.mid|..] == s + l.sep + t + l.tail
  {
    var rest := s + l.sep + t + l.tail;
    var q := l.head + fn + l.mid + s + l.sep + t + l.tail;
    assert q == l.head + (fn + (l.mid + rest));
    assert q[|l.head|..] == fn + (l.mid + rest);
    TakeUntilJoin(fn, l.mid + rest, '(');
    assert (l.mid + rest)[|l.mid|..] == rest;
  }

  /** Reading a rendered text back gives the function, source and target it was rendered from. */
  lemma ParseRender(l: Layout, fn: string, source: int, target: int)
    requires Delimited(l) && '(' !in fn
    ensures Parse(l, Render(l, fn, source, target)) == Some(Request(fn, source, target))
  {
    var s := IntToString(source);
    var t := IntToString(target);
    IntTextHasNoComma(source);
    IntTextHasNoComma(target);
    ParseSplits(l, fn, s, t);
    ParseFields(l, s, t);
    ParseIntToString(source);
    ParseIntToString(target);
  }

  /** A built query names its pgRouting function, its source and its target recoverably. */
  lemma ParseBuiltQuery(alg: string, source: int, target: int)
    requires BuildQuery(alg, source, target).Success?
    ensures ParseQuery(BuildQuery(alg, source, target).value)
            == Some(Request(FunctionFor(alg).value, source, target))
  {
    PgrDelimited();
    ParseRender(Pgr, FunctionFor(alg).value, source, target);
  }

  /** Different requests never produce the same text. */
  lemma BuildQueryInjective(a: string, s: int, t: int, a': string, s': int, t': int)
    requires BuildQuery(a, s, t).Success? && BuildQuery(a, s, t) == BuildQuery(a', s', t')
    ensures a == a' && s == s' && t == t'
  {
    ParseBuiltQuery(a, s, t);
    ParseBuiltQuery(a', s', t');
  }

  /** A part placed between two others is an infix of the whole. */
  lemma InfixOfJoin(a: string, needle: string, b: string)
    ensures Infix(needle, a + needle + b)
  {
    assert (a + needle + b)[|a|..] == needle + b;
  }

  /** An infix of one part of a text is an infix of the whole. */
  lemma InfixGrows(needle: string, a: string, m: string, b: string)
    requires Infix(needle, m)
    ensures Infix(needle, a + m + b)
  {
    var k :| 0 <= k <= |m| && needle <= m[k..];
    assert (a + m + b)[|a| + k..] == m[k..] + b;
  }

  /** The query layout's delimiters: `mid` opens with `(`, `sep` and `tail` with a comma. */
  lemma PgrDelimited()
    ensures Delimited(Pgr)
  {
    assert Pgr.mid[0] == '(';
    assert Pgr.sep[0] == ',';
    assert Pgr.tail[0] == ',';
  }

  /** The layout names the `ways` edge table and asks for a directed search. */
  lemma PgrMentions()
    ensures Infix("FROM ways", Pgr.mid) && Infix("directed := true", Pgr.tail)
  {
    InfixOfJoin("(" + "\n            'SELECT id, source, target, cost, reverse_cost ", "FROM ways", "',\n            ");
    InfixOfJoin(", ", "directed := true", "\n        );\n        ");
  }

  /** What `mid` or `tail` contains, every rendered text contains. */
  lemma RenderContains(l: Layout, fn: string, source: int, target: int, needle: string)
    requires Infix(needle, l.mid) || Infix(needle, l.tail)
    ensures Infix(needle, Render(l, fn, source, target))
  {
    var numbers := IntToString(source) + l.sep + IntToString(target);
    if Infix(needle, l.mid) {
      assert Render(l, fn, source, target) == (l.head + fn) + l.mid + (numbers + l.tail);
      InfixGrows(needle, l.head + fn, l.mid, numbers + l.tail);
    } else {
      assert Render(l, fn, source, target) == (l.head + fn + l.mid + numbers) + l.tail + [];
      InfixGrows(needle, l.head + fn + l.mid + numbers, l.tail, []);
    }
  }

  /** Every query reads the `ways` edge table and asks for a directed search. */
  lemma QueryReadsWaysDirected(alg: string, source: int, target: int)
    requires BuildQuery(alg, source, target).Success?
    ensures Infix("FROM ways", BuildQuery(alg, source, target).value)
    ensures Infix("directed := true", BuildQuery(alg, source, target).value)
  {
    PgrMentions();
    RenderContains(Pgr, FunctionFor(alg).value, source, target, "FROM ways");
    RenderContains(Pgr, FunctionFor(alg).value, source, target, "directed := true");
  }

  /** A destination row of the pizza query: vertex id, latitude and longitude. */
  datatype Target<L> = Target(node: int, lat: L, lon: L)

  /** One entry of the result: the rows pgRouting returned, with the destination's position. */
  datatype Leg<P, L> = Leg(path: P, lat: L, lon: L)

  /** `f(0) + ... + f(n - 1)`. */
  function SumTo(f: nat -> nat, n: nat): nat {
    if n == 0 then 0 else SumTo(f, n - 1) + f(n - 1)
  }

  /**
   * The loop of `calculate_route` from target `j` on, with `total` the time so far. `query`
   * builds the text for a target vertex, the database is the function `db` from query text to
   * rows, and `elapsed(i)` is the time the round trip for target `i` took.
   */
  function Accumulate<P, L>(query: int -> Result<string, QueryError>, targets: seq<Target<L>>, db: string -> P,
                            elapsed: nat -> nat, j: nat, total: nat): (r: Result<(seq<Leg<P, L>>, nat), QueryError>)
    requires j <= |targets|
    ensures r.Failure? <==> exists k :: j <= k < |targets| && query(targets[k].node).Failure?
    ensures r.Success? ==> |r.value.0| == |targets| - j
    ensures r.Success? ==> r.value.1 + SumTo(elapsed, j) == total + SumTo(elapsed, |targets|)
    decreases |targets| - j
  {
    if j == |targets| then Success(([], total))
    else
      match query(targets[j].node)
      case Failure(e) => Failure(e)
      case Success(q) =>
        var leg := Leg(db(q), targets[j].lat, targets[j].lon);
        match Accumulate(query, targets, db, elapsed, j + 1, total + elapsed(j))
        case Failure(e) => Failure(e)
        case Success(rest) => Success(([leg] + rest.0, rest.1))
  }

  /** Leg `i` of the loop from target `j` holds the rows of the query for target `j + i`. */
  lemma {:induction false} AccumulateLegs<P, L>(query: int -> Result<string, QueryError>, targets: seq<Target<L>>,
                                                db: string -> P, elapsed: nat -> nat, j: nat, total: nat, i: nat)
    requires j <= |targets|
    requires Accumulate(query, targets, db, elapsed, j, total).Success?
    requires i < |targets| - j
    ensures query(targets[j + i].node).Success?
    ensures Accumulate(query, targets, db, elapsed, j, total).value.0[i]
            == Leg(db(query(targets[j + i].node).value), targets[j + i].lat, targets[j + i].lon)
    decreases i
  {
    var rest := Accumulate(query, targets, db, elapsed, j + 1, total + elapsed(j));
    assert Accumulate(query, targets, db, elapsed, j, total).value.0
           == [Leg(db(query(targets[j].node).value), targets[j].lat, targets[j].lon)] + rest.value.0;
    if i > 0 {
      AccumulateLegs(query, targets, db, elapsed, j + 1, total + elapsed(j), i - 1);
      assert j + 1 + (i - 1) == j + i;
    }
  }

  /**
   * `calculate_route`: one leg per target, in target order, and the total time from 0. An
   * invalid name fails as soon as there is a target to query; with no targets it returns
   * an empty result.
   */
  function CalculateRoute<P, L>(alg: string, source: int, targets: seq<Target<L>>, db: string -> P,
                                elapsed: nat -> nat): (r: Result<(seq<Leg<P, L>>, nat), QueryError>)
    ensures r.Failure? <==> |targets| > 0 && FunctionFor(alg).None?
    ensures r.Success? ==> |r.value.0| == |targets|
    ensures r.Success? ==> forall i :: 0 <= i < |targets| ==>
              && BuildQuery(alg, source, targets[i].node).Success?
              && r.value.0[i] == Leg(db(BuildQuery(alg, source, targets[i].node).value),
                                     targets[i].lat, targets[i].lon)
    ensures r.Success? ==> r.value.1 == SumTo(elapsed, |targets|)
  {
    var query := (t: int) => BuildQuery(alg, source, t);
    var r := Accumulate(query, targets, db, elapsed, 0, 0);
    if r.Success? then
      assert forall i :: 0 <= i < |targets| ==>
        && BuildQuery(alg, source, targets[i].node).Success?
        && r.value.0[i] == Leg(db(BuildQuery(alg, source, targets[i].node).value), targets[i].lat, targets[i].lon)
      by {
        forall i | 0 <= i < |targets|
          ensures BuildQuery(alg, source, targets[i].node).Success?
          ensures r.value.0[i] == Leg(db(BuildQuery(alg, source, targets[i].node).value), targets[i].lat, targets[i].lon)
        {
          AccumulateLegs(query, targets, db, elapsed, 0, 0, i);
        }
      }
      r
    else
      assert |targets| > 0 && FunctionFor(alg).None?;
      r
  }
}

=== FILE: plotting.dfy ===
/**
 * What the route plotter decides before it hands anything to the map
 * library: the dash pattern of a line style, the colour and style of each
 * algorithm's layer, which stored routes become lines, and the name of the
 * file the map is saved to.
 */
module Plotting {
  import opened Wrappers
  import opened Collections
  import opened Decimal
  import opened Graph

  // ---------------------------------------------------------------------
  // Line styles

  /** The dash pattern for a line style; no pattern draws a solid line,
      and a style the plotter does not know is drawn solid. */
  function DashArray(style: string): (r: Option<string>)
    ensures r.None? <==> style != "dashed" && style != "dotted" && style != "dashdot"
    ensures style == "dashed" ==> r == Some("5, 5")
    ensures style == "dotted" ==> r == Some("1, 5")
    ensures style == "dashdot" ==> r == Some("5, 5, 1, 5")
  {
    if style == "solid" then None
    else if style == "dashed" then Some("5, 5")
    else if style == "dotted" then Some("1, 5")
    else if style == "dashdot" then Some("5, 5, 1, 5")
    else None
  }

  predicate KnownStyle(style: string) {
    style == "solid" || style == "dashed" || style == "dotted" || style == "dashdot"
  }

  /** Reads a line style back from the pattern drawn. */
  function StyleOf(dash: Option<string>): string {
    match dash
    case None => "solid"
    case Some(d) =>
      if d == "5, 5" then "dashed"
      else if d == "1, 5" then "dotted"
      else if d == "5, 5, 1, 5" then "dashdot"
      else "solid"
  }

  /** Every known style can be read back from its pattern, so no two known
      styles look alike on the map, and any other style looks solid. */
  lemma DashArrayRoundTrip(style: string)
    ensures KnownStyle(style) ==> StyleOf(DashArray(style)) == style
    ensures !KnownStyle(style) ==> DashArray(style) == DashArray("solid")
  {
  }

  // ---------------------------------------------------------------------
  // Colours and styles per algorithm

  datatype Pref = Pref(color: string, style: string)

  /** The five algorithms the planner benchmarks, in the order it runs them. */
  const Algorithms: seq<string> :=
    ["dijkstra", "astar", "bellman_ford", "bidirectional_dijkstra", "bidirectional_a_star"]

  /** The visualization preferences used when the user has stored none. */
  function DefaultPreferences(): (r: map<string, Pref>)
    ensures r.Keys == set a | a in Algorithms
    ensures forall a :: a in r ==> r[a].style == "solid"
    ensures forall a :: a in r ==> r[a].color == ColorMap()[a]
  {
    map[
      "dijkstra" := Pref("green", "solid"),
      "astar" := Pref("purple", "solid"),
      "bellman_ford" := Pref("orange", "solid"),
      "bidirectional_dijkstra" := Pref("blue", "solid"),
      "bidirectional_a_star" := Pref("darkgreen", "solid")]
  }

  /** The preferences in force: the stored ones if there are any. */
  function VisualizationPreferences(stored: Option<map<string, Pref>>): (r: map<string, Pref>)
    ensures stored.Some? ==> r == stored.value
    ensures stored.None? ==> r == DefaultPreferences()
  {
    stored.GetOr(DefaultPreferences())
  }

  /** An algorithm without preferences is drawn blue and solid. */
  function PrefsFor(prefs: map<string, Pref>, alg: string): (r: Pref)
    ensures alg in prefs ==> r == prefs[alg]
    ensures alg !in prefs ==> r == Pref("blue", "solid")
  {
    if alg in prefs then prefs[alg] else Pref("blue", "solid")
  }

  /** The fixed colour table of `tcc_poo.py` and `tcc_poo_Interface_grafica.py`. */
  function ColorMap(): map<string, string> {
    map[
      "dijkstra" := "green",
      "astar" := "purple",
      "bellman_ford" := "orange",
      "bidirectional_dijkstra" := "blue",
      "bidirectional_a_star" := "darkgreen"]
  }

  /** The colour table's colour for an algorithm, blue by default. */
  function ColorFor(alg: string): (r: string)
    ensures alg in ColorMap() ==> r == ColorMap()[alg]
    ensures alg !in ColorMap() ==> r == "blue"
  {
    if alg in ColorMap() then ColorMap()[alg] else "blue"
  }

  /** How a layer is painted: its colour and dash pattern. */
  type Paint = string -> (string, Option<string>)

  /** The package plotter paints from the user's preferences. */
  function PreferencePaint(prefs: map<string, Pref>): Paint {
    alg => (PrefsFor(prefs, alg).color, DashArray(PrefsFor(prefs, alg).style))
  }

  /** `tcc_poo.py` and `tcc_poo_Interface_grafica.py` paint from the colour table, always
      solid; `OLD/tcc_poo.py` paints from its preferences, as the package plotter does. */
  function TablePaint(): Paint {
    alg => (ColorFor(alg), None)
  }

  /** With the default preferences both plotters paint every algorithm,
      known or not, alike. */
  lemma DefaultsMatchColorTable(alg: string)
    ensures PreferencePaint(DefaultPreferences())(alg) == TablePaint()(alg)
  {
    var p := PrefsFor(DefaultPreferences(), alg);
    assert p.style == "solid";
    assert p.color == ColorFor(alg) by {
      if alg == "dijkstra" {
      } else if alg == "astar" {
      } else if alg == "bellman_ford" {
      } else if alg == "bidirectional_dijkstra" {
      } else if alg == "bidirectional_a_star" {
      } else {
        assert alg !in DefaultPreferences();
        assert alg !in ColorMap();
      }
    }
  }

  // ---------------------------------------------------------------------
  // Which routes are drawn

  /** A route becomes a line when it has two nodes or more and every node
      has coordinates in the projected graph; the plotter skips the others
      (a short route explicitly, an unknown node through the lookup error
      it catches). */
  predicate Drawable(route: seq<Node>, placed: set<Node>) {
    |route| >= 2 && forall v :: v in route ==> v in placed
  }

  /** The drawable routes, in their order, each as often as stored. */
  function Drawn(routes: seq<seq<Node>>, placed: set<Node>): (r: seq<seq<Node>>)
    ensures |r| <= |routes|
    ensures forall p :: Count(r, p) == if Drawable(p, placed) then Count(routes, p) else 0
    ensures (forall i :: 0 <= i < |routes| ==> Drawable(routes[i], placed)) ==> r == routes
  {
    if routes == [] then []
    else
      var rest := Drawn(routes[1..], placed);
      assert forall p :: Count(routes, p) == (if routes[0] == p then 1 else 0) + Count(routes[1..], p);
      if Drawable(routes[0], placed) then
        assert forall p :: Count([routes[0]] + rest, p) == (if routes[0] == p then 1 else 0) + Count(rest, p) by {
          forall p ensures Count([routes[0]] + rest, p) == (if routes[0] == p then 1 else 0) + Count(rest, p) {
            assert ([routes[0]] + rest)[1..] == rest;
          }
        }
        [routes[0]] + rest
      else rest
  }

  /** Drawing what was drawn draws it all again. */
  lemma DrawnIdempotent(routes: seq<seq<Node>>, placed: set<Node>)
    ensures Drawn(Drawn(routes, placed), placed) == Drawn(routes, placed)
  {
    var r := Drawn(routes, placed);
    forall i | 0 <= i < |r| ensures Drawable(r[i], placed) {
      assert Count(r, r[i]) > 0;
    }
  }

  datatype PlotError = MissingAlgorithm(alg: string)

  /** The lines of one algorithm's layer: the first `limit` stored routes
      (Python slicing), less those that cannot be drawn. An algorithm with
      no stored routes stops the plot with a lookup error. */
  function RoutesToDraw(routes: map<string, seq<seq<Node>>>, alg: string, limit: int, placed: set<Node>)
    : (r: Result<seq<seq<Node>>, PlotError>)
    ensures r.Failure? <==> alg !in routes
    ensures r.Failure? ==> r.error == MissingAlgorithm(alg)
    ensures r.Success? ==>
      forall p :: Count(r.value, p) == if Drawable(p, placed) then Count(Prefix(routes[alg], limit), p) else 0
    ensures r.Success? && limit >= 0 ==> |r.value| <= limit
  {
    if alg !in routes then Failure(MissingAlgorithm(alg))
    else Success(Drawn(Prefix(routes[alg], limit), placed))
  }

  /** `algorithms[i]` is the first algorithm without stored routes. */
  predicate FirstMissing(algorithms: seq<string>, routes: map<string, seq<seq<Node>>>, i: int) {
    0 <= i < |algorithms| && algorithms[i] !in routes && forall j :: 0 <= j < i ==> algorithms[j] in routes
  }

  /** Past a first algorithm with stored routes, the first missing one
      moves up one place. */
  lemma FirstMissingShift(algorithms: seq<string>, routes: map<string, seq<seq<Node>>>, e: PlotError)
    requires |algorithms| > 0 && algorithms[0] in routes
    requires exists i :: FirstMissing(algorithms[1..], routes, i) && e == MissingAlgorithm(algorithms[1..][i])
    ensures exists i :: FirstMissing(algorithms, routes, i) && e == MissingAlgorithm(algorithms[i])
  {
    var i :| FirstMissing(algorithms[1..], routes, i) && e == MissingAlgorithm(algorithms[1..][i]);
    assert FirstMissing(algorithms, routes, i + 1);
  }

  datatype Layer = Layer(alg: string, color: string, dash: Option<string>, lines: seq<seq<Node>>)

  /** One layer per algorithm, in order; the first algorithm without
      stored routes stops the plot. */
  function Layers(algorithms: seq<string>, paint: Paint, routes: map<string, seq<seq<Node>>>,
                  limit: int, placed: set<Node>): (r: Result<seq<Layer>, PlotError>)
    ensures r.Failure? <==> exists i :: 0 <= i < |algorithms| && algorithms[i] !in routes
    ensures r.Failure? ==> exists i :: FirstMissing(algorithms, routes, i) && r.error == MissingAlgorithm(algorithms[i])
    ensures r.Success? ==> |r.value| == |algorithms|
    ensures r.Success? ==> forall i :: 0 <= i < |algorithms| ==>
      && r.value[i].alg == algorithms[i]
      && (r.value[i].color, r.value[i].dash) == paint(algorithms[i])
      && r.value[i].lines == RoutesToDraw(routes, algorithms[i], limit, placed).value
  {
    if algorithms == [] then Success([])
    else
      match RoutesToDraw(routes, algorithms[0], limit, placed)
      case Failure(e) =>
        assert FirstMissing(algorithms, routes, 0);
        Failure(e)
      case Success(lines) =>
        match Layers(algorithms[1..], paint, routes, limit, placed)
        case Failure(e) =>
          FirstMissingShift(algorithms, routes, e);
          Failure(e)
        case Success(rest) =>
          var colors := paint(algorithms[0]);
          Success([Layer(algorithms[0], colors.0, colors.1, lines)] + rest)
  }

  /** The single-file planner with a window draws at most ten routes per
      algorithm, and never more than were selected. */
  function PlotLimit(selected: nat): (r: nat)
    ensures r <= 10 && r <= selected
    ensures r == 10 || r == selected
  {
    Min(selected, 10)
  }

  /** So each of its layers holds at most ten lines. */
  lemma LayersAtMostTen(algorithms: seq<string>, paint: Paint, routes: map<string, seq<seq<Node>>>,
                        selected: nat, placed: set<Node>)
    requires Layers(algorithms, paint, routes, PlotLimit(selected), placed).Success?
    ensures forall l :: l in Layers(algorithms, paint, routes, PlotLimit(selected), placed).value ==>
      |l.lines| <= 10 && |l.lines| <= selected
  {
    var ls := Layers(algorithms, paint, routes, PlotLimit(selected), placed).value;
    forall l | l in ls ensures |l.lines| <= 10 && |l.lines| <= selected {
      var i :| 0 <= i < |ls| && ls[i] == l;
      assert l.lines == RoutesToDraw(routes, algorithms[i], PlotLimit(selected), placed).value;
    }
  }

  /** The command-line planner's limit: the most routes any algorithm
      stored (zero when there are no algorithms). */
  function RoutesLimit(routes: map<string, seq<seq<Node>>>, algorithms: seq<string>): (r: nat)
    requires forall i :: 0 <= i < |algorithms| ==> algorithms[i] in routes
    ensures forall i :: 0 <= i < |algorithms| ==> |routes[algorithms[i]]| <= r
    ensures r == 0 || exists i :: 0 <= i < |algorithms| && |routes[algorithms[i]]| == r
  {
    if algorithms == [] then 0
    else
      var rest := RoutesLimit(routes, algorithms[1..]);
      assert forall i :: 1 <= i < |algorithms| ==> algorithms[i] == algorithms[1..][i - 1];
      Max(|routes[algorithms[0]]|, rest)
  }

  /** So that planner draws every drawable route it stored. */
  lemma RoutesLimitDrawsAll(routes: map<string, seq<seq<Node>>>, algorithms: seq<string>, i: nat, placed: set<Node>)
    requires forall j :: 0 <= j < |algorithms| ==> algorithms[j] in routes
    requires i < |algorithms|
    ensures RoutesToDraw(routes, algorithms[i], RoutesLimit(routes, algorithms), placed)
            == Success(Drawn(routes[algorithms[i]], placed))
  {
    PrefixAll(routes[algorithms[i]], RoutesLimit(routes, algorithms));
  }

  // ---------------------------------------------------------------------
  // The map's file name

  /** The last position of `c` in `s`, or -1. */
  function LastIndex(s: string, c: char): (r: int)
    ensures -1 <= r < |s|
    ensures r >= 0 ==> s[r] == c
    ensures forall k :: r < k < |s| ==> s[k] != c
  {
    if s == [] then -1
    else if s[|s| - 1] == c then |s| - 1
    else LastIndex(s[..|s| - 1], c)
  }

  /** POSIX `os.path.splitext`: the extension runs from the last dot of
      the last path component, unless that component has only dots before
      it. */
  function SplitExt(path: string): (r: (string, string))
    ensures r.0 + r.1 == path
    ensures r.1 != [] ==> r.1[0] == '.' && '/' !in r.1 && '.' !in r.1[1..]
    ensures r.1 != [] ==> exists k :: 0 <= k < |r.0| && r.0[k] != '.' && '/' !in r.0[k..]
  {
    var sep := LastIndex(path, '/');
    var dot := LastIndex(path, '.');
    if dot > sep && exists k :: sep < k < dot && path[k] != '.' then
      assert path == path[..dot] + path[dot..];
      assert forall k :: sep < k < |path| ==> path[k] != '/';
      (path[..dot], path[dot..])
    else (path, [])
  }

  /** The `i`-th numbered name for a root and an extension. */
  function Numbered(root: string, ext: string, i: nat): string {
    root + "_" + Pad2(i) + ext
  }

  /** The `i`-th alternative name: `mapa_rotas.html` becomes
      `mapa_rotas_01.html`, `mapa_rotas_02.html`, and so on. */
  function Candidate(base: string, i: nat): string {
    Numbered(SplitExt(base).0, SplitExt(base).1, i)
  }

  /** Different numbers give different names. */
  lemma NumberedInjective(root: string, ext: string, a: nat, b: nat)
    requires Numbered(root, ext, a) == Numbered(root, ext, b)
    ensures a == b
  {
    var x := root + "_";
    var pa := Pad2(a);
    var pb := Pad2(b);
    assert Numbered(root, ext, a) == x + pa + ext;
    assert Numbered(root, ext, b) == x + pb + ext;
    assert |pa| == |pb|;
    assert pa == (x + pa + ext)[|x|..|x| + |pa|];
    assert pb == (x + pb + ext)[|x|..|x| + |pb|];
    Pad2Injective(a, b);
  }

  /** A character that does not occur has no last position. */
  lemma {:induction false} LastIndexAbsent(s: string, c: char)
    requires c !in s
    ensures LastIndex(s, c) == -1
  {
    if s != [] {
      assert c !in s[..|s| - 1];
      LastIndexAbsent(s[..|s| - 1], c);
    }
  }

  /** A plain file name (no directory, no leading dot) with one extension
      splits at its dot. */
  lemma SplitPlainName(root: string, ext: string)
    requires root != [] && '.' !in root && '/' !in root
    requires |ext| >= 1 && ext[0] == '.' && '.' !in ext[1..] && '/' !in ext
    ensures SplitExt(root + ext) == (root, ext)
  {
    var path := root + ext;
    assert '/' !in path by {
      forall k | 0 <= k < |path| ensures path[k] != '/' {
        if k < |root| { assert path[k] == root[k]; } else { assert path[k] == ext[k - |root|]; }
      }
    }
    LastIndexAbsent(path, '/');
    var dot := LastIndex(path, '.');
    assert path[|root|] == '.';
    forall k | |root| < k < |path| ensures path[k] != '.' {
      assert path[k] == ext[1..][k - |root| - 1];
    }
    assert dot == |root|;
    assert path[0] == root[0] && root[0] != '.';
    assert path[..dot] == root && path[dot..] == ext;
  }

  /** A hidden file name (one leading dot, no other) has no extension. */
  lemma SplitHiddenName(path: string)
    requires |path| >= 1 && path[0] == '.' && '.' !in path[1..] && '/' !in path
    ensures SplitExt(path) == (path, [])
  {
    LastIndexAbsent(path, '/');
    forall k | 0 < k < |path| ensures path[k] != '.' {
      assert path[k] == path[1..][k - 1];
    }
    assert LastIndex(path, '.') == 0;
  }

  lemma CandidateExample()
    ensures Candidate("mapa_rotas.html", 1) == "mapa_rotas_01.html"
  {
    SplitPlainName("mapa_rotas", ".html");
    assert "mapa_rotas" + ".html" == "mapa_rotas.html";
  }

  /** Every alternative name numbered below `i` is taken. */
  predicate AllTaken(base: string, existing: set<string>, i: nat) {
    forall j :: 1 <= j < i ==> Candidate(base, j) in existing
  }

  /** A file name that is not taken: the base name when it is free,
      otherwise the first free numbered alternative. */
  method UniqueFilename(base: string, existing: set<string>) returns (name: string)
    ensures name !in existing
    ensures base !in existing ==> name == base
    ensures base in existing ==> exists i :: i >= 1 && name == Candidate(base, i) && AllTaken(base, existing, i)
  {
    if base !in existing {
      return base;
    }
    var names := (i: nat) => Candidate(base, i);
    forall a: nat, b: nat | names(a) == names(b) ensures a == b {
      NumberedInjective(SplitExt(base).0, SplitExt(base).1, a, b);
    }
    var i := FirstFree(names, existing);
    name := names(i);
    assert forall j: nat :: names(j) == Candidate(base, j);
    assert AllTaken(base, existing, i);
  }

  /** The first name of an injective numbering, from 1 on, that is not
      taken; there is one because only finitely many names are taken. */
  method FirstFree(names: nat -> string, existing: set<string>) returns (i: nat)
    requires forall a: nat, b: nat :: names(a) == names(b) ==> a == b
    ensures i >= 1 && names(i) !in existing
    ensures forall j :: 1 <= j < i ==> names(j) in existing
  {
    i := 1;
    ghost var taken: set<string> := {};
    while names(i) in existing
      invariant i >= 1
      invariant taken <= existing
      invariant |taken| == i - 1
      invariant forall j :: 1 <= j < i ==> names(j) in existing
      invariant forall x :: x in taken ==> exists j :: 1 <= j < i && x == names(j)
      decreases |existing| - |taken|
    {
      assert names(i) !in taken;
      taken := taken + {names(i)};
      SubsetCard(taken, existing);
      i := i + 1;
    }
  }
}

=== FILE: pqueue.dfy ===
/**
 * The search frontier's priority queue. The source pushes `(priority, cost, node)` tuples onto
 * a binary heap and pops the smallest in Python's tuple order; the model keeps the same
 * entries in a list sorted by that order, so the head is what the heap would pop.
 */
module PriorityQueue {
  import opened Graph

  datatype Entry = Entry(priority: nat, cost: nat, node: Node)

  /** Python's tuple comparison `a <= b`: by priority, then cost, then node. */
  predicate Le(a: Entry, b: Entry) {
    a.priority < b.priority
    || (a.priority == b.priority && (a.cost < b.cost || (a.cost == b.cost && a.node <= b.node)))
  }

  ghost predicate Sorted(q: seq<Entry>) {
    forall i, j :: 0 <= i < j < |q| ==> Le(q[i], q[j])
  }

  /** `heapq.heappush`: adds one entry and keeps the order. */
  function Push(q: seq<Entry>, e: Entry): (r: seq<Entry>)
    requires Sorted(q)
    ensures Sorted(r)
    ensures multiset(r) == multiset(q) + multiset{e}
    ensures forall x :: x in r <==> x == e || x in q
  {
    if q == [] || Le(e, q[0]) then [e] + q
    else
      var rest := Push(q[1..], e);
      PushHead(q, e, rest);
      assert q == [q[0]] + q[1..];
      [q[0]] + rest
  }
  /** Putting the old head in front of the queue it is no larger than keeps it ordered. */
  lemma PushHead(q: seq<Entry>, e: Entry, rest: seq<Entry>)
    requires q != [] && Sorted(q) && !Le(e, q[0])
    requires Sorted(rest) && multiset(rest) == multiset(q[1..]) + multiset{e}
    ensures Sorted([q[0]] + rest)
    ensures multiset([q[0]] + rest) == multiset(q) + multiset{e}
  {
    assert q == [q[0]] + q[1..];
    forall k | 0 <= k < |rest| ensures Le(q[0], rest[k]) {
      assert rest[k] in multiset(rest);
      if rest[k] != e {
        assert rest[k] in multiset(q[1..]);
        var j :| 0 <= j < |q[1..]| && q[1..][j] == rest[k];
        assert q[j + 1] == rest[k];
      }
    }
    var r := [q[0]] + rest;
    forall i, j | 0 <= i < j < |r| ensures Le(r[i], r[j]) {
      if i > 0 {
        assert r[i] == rest[i - 1] && r[j] == rest[j - 1];
      } else {
        assert r[j] == rest[j - 1];
      }
    }
  }

  /** `q[0]`: the entry `heapq.heappop` would return, which is no larger than any other. */
  function Peek(q: seq<Entry>): (e: Entry)
    requires q != [] && Sorted(q)
    ensures e in q
    ensures forall x :: x in q ==> Le(e, x)
  {
    q[0]
  }
}

=== FILE: ranking.dfy ===
/**
 * Choosing the destinations to route to: every point of interest the
 * origin can reach is ranked by its shortest-path length, the ranking is
 * sorted (stably, as Python's list sort is), and the closest few are
 * kept, with the names and coordinates that belong to them.
 */
module Ranking {
  import opened Wrappers
  import opened Collections
  import opened Graph

  /** One reachable destination: its path length, node and name. */
  datatype Ranked = Ranked(dist: nat, node: Node, name: string)

  /** The shortest-path length from the origin to a node, as the graph
      library reports it; a missing path is `NoPath`. */
  type Distance = Node -> Result<nat, SearchError>

  // ---------------------------------------------------------------------
  // Reachable destinations

  /** The positions from `k` on whose destination has a path, in order. */
  function Reached(dist: Distance, nodes: seq<Node>, k: nat): (r: seq<nat>)
    requires k <= |nodes|
    ensures forall i :: 0 <= i < |r| ==> k <= r[i] < |nodes| && dist(nodes[r[i]]).Success?
    ensures forall i, j :: 0 <= i < j < |r| ==> r[i] < r[j]
    ensures forall j :: k <= j < |nodes| && dist(nodes[j]).Success? ==> j in r
    decreases |nodes| - k
  {
    if k == |nodes| then []
    else
      var rest := Reached(dist, nodes, k + 1);
      if dist(nodes[k]).Success? then [k] + rest else rest
  }

  /** The destinations from index `k` on that have a path, in their order;
      a missing path skips the destination, any other error ends the whole
      selection. */
  function Reachable(dist: Distance, nodes: seq<Node>, names: seq<string>, k: nat)
    : (r: Result<seq<Ranked>, SearchError>)
    requires |names| == |nodes| && k <= |nodes|
    ensures r.Failure? <==> exists j :: k <= j < |nodes| && Fatal(dist(nodes[j]))
    ensures r.Success? ==> |r.value| == |Reached(dist, nodes, k)| <= |nodes| - k
    ensures r.Success? ==> forall i :: 0 <= i < |r.value| ==>
      var p := Reached(dist, nodes, k)[i];
      r.value[i] == Ranked(dist(nodes[p]).value, nodes[p], names[p])
    ensures r.Success? ==> forall e :: e in r.value <==>
      exists j :: k <= j < |nodes| && e == Ranked(DistOf(dist(nodes[j])), nodes[j], names[j]) && dist(nodes[j]).Success?
    decreases |nodes| - k
  {
    if k == |nodes| then Success([])
    else
      var rest := Reachable(dist, nodes, names, k + 1);
      match dist(nodes[k])
      case Failure(e) =>
        if e != NoPath then Failure(e)
        else rest
      case Success(d) =>
        if rest.Failure? then rest
        else Success([Ranked(d, nodes[k], names[k])] + rest.value)
  }

  /** An error that the selection does not recover from. */
  predicate Fatal(d: Result<nat, SearchError>) {
    d.Failure? && d.error != NoPath
  }

  function DistOf(d: Result<nat, SearchError>): nat {
    if d.Success? then d.value else 0
  }

  // ---------------------------------------------------------------------
  // Stable sort by distance

  predicate Sorted(s: seq<Ranked>) {
    forall i, j :: 0 <= i < j < |s| ==> s[i].dist <= s[j].dist
  }

  /** Puts `e` after every entry no farther than it. */
  function Insert(e: Ranked, s: seq<Ranked>): (r: seq<Ranked>)
    requires Sorted(s)
    ensures Sorted(r)
    ensures multiset(r) == multiset(s) + multiset{e}
    ensures |r| == |s| + 1
    ensures r[0] == e || (s != [] && r[0] == s[0])
  {
    if s == [] then [e]
    else if s[0].dist <= e.dist then
      var t := Insert(e, s[1..]);
      assert s == [s[0]] + s[1..];
      assert s[0].dist <= t[0].dist;
      [s[0]] + t
    else [e] + s
  }

  /** Sorts by distance; entries at the same distance keep their order. */
  function SortByDistance(s: seq<Ranked>): (r: seq<Ranked>)
    ensures Sorted(r)
    ensures multiset(r) == multiset(s)
    ensures |r| == |s|
  {
    if s == [] then []
    else
      assert s == s[..|s| - 1] + [s[|s| - 1]];
      Insert(s[|s| - 1], SortByDistance(s[..|s| - 1]))
  }

  /** The entries at distance `d`, in order. */
  function AtDistance(s: seq<Ranked>, d: nat): seq<Ranked> {
    if s == [] then []
    else (if s[0].dist == d then [s[0]] else []) + AtDistance(s[1..], d)
  }

  lemma {:induction false} AtDistanceAppend(s: seq<Ranked>, t: seq<Ranked>, d: nat)
    ensures AtDistance(s + t, d) == AtDistance(s, d) + AtDistance(t, d)
  {
    if s == [] {
      assert s + t == t;
    } else {
      assert (s + t)[0] == s[0];
      assert (s + t)[1..] == s[1..] + t;
      AtDistanceAppend(s[1..], t, d);
    }
  }

  /** In a sorted sequence, nothing past the first farther entry is at a
      smaller distance. */
  lemma {:induction false} AtDistanceOfFarther(s: seq<Ranked>, d: nat)
    requires Sorted(s)
    requires s != [] ==> s[0].dist > d
    ensures AtDistance(s, d) == []
  {
    if s != [] {
      AtDistanceOfFarther(s[1..], d);
    }
  }

  /** The entries of a one-element sequence at distance `d`. */
  lemma AtDistanceSingle(e: Ranked, d: nat)
    ensures AtDistance([e], d) == if e.dist == d then [e] else []
  {
    assert [e][1..] == [];
  }

  /** Inserting `e` adds it last among the entries at its own distance. */
  lemma {:induction false} InsertStable(e: Ranked, s: seq<Ranked>, d: nat)
    requires Sorted(s)
    ensures AtDistance(Insert(e, s), d) == AtDistance(s, d) + (if e.dist == d then [e] else [])
  {
    AtDistanceSingle(e, d);
    if s == [] {
      assert Insert(e, s) == [e];
    } else if s[0].dist <= e.dist {
      InsertStable(e, s[1..], d);
      InsertPast(e, s, d);
      AppendAssoc(AtDistance([s[0]], d), AtDistance(s[1..], d), if e.dist == d then [e] else []);
    } else {
      InsertFront(e, s, d);
    }
  }

  /** Inserting past the first entry keeps it first. */
  lemma InsertPast(e: Ranked, s: seq<Ranked>, d: nat)
    requires Sorted(s) && s != [] && s[0].dist <= e.dist
    ensures AtDistance(Insert(e, s), d) == AtDistance([s[0]], d) + AtDistance(Insert(e, s[1..]), d)
    ensures AtDistance(s, d) == AtDistance([s[0]], d) + AtDistance(s[1..], d)
  {
    var t := Insert(e, s[1..]);
    assert Insert(e, s) == [s[0]] + t;
    AtDistanceAppend([s[0]], t, d);
    assert s == [s[0]] + s[1..];
    AtDistanceAppend([s[0]], s[1..], d);
  }

  /** Inserting before the first entry, which is farther than `e`. */
  lemma InsertFront(e: Ranked, s: seq<Ranked>, d: nat)
    requires Sorted(s) && s != [] && s[0].dist > e.dist
    ensures AtDistance(Insert(e, s), d) == AtDistance(s, d) + (if e.dist == d then [e] else [])
  {
    assert Insert(e, s) == [e] + s;
    AtDistanceAppend([e], s, d);
    AtDistanceSingle(e, d);
    if e.dist == d {
      AtDistanceOfFarther(s, d);
    }
  }

  /** The sort is stable: for every distance, the entries at it come out in
      the order they went in. */
  lemma {:induction false} SortStable(s: seq<Ranked>, d: nat)
    ensures AtDistance(SortByDistance(s), d) == AtDistance(s, d)
  {
    if s != [] {
      var init := s[..|s| - 1];
      var last := s[|s| - 1];
      SortStable(init, d);
      InsertStable(last, SortByDistance(init), d);
      assert SortByDistance(s) == Insert(last, SortByDistance(init));
      SplitLast(s);
      AtDistanceAppend(init, [last], d);
      AtDistanceSingle(last, d);
    }
  }

  // ---------------------------------------------------------------------
  // How many destinations are kept

  /** The three planners' ways of deciding how many destinations to keep:
      a number lowered to the count found, the user's reply (empty for
      all), or a fixed ten. */
  datatype CountRule = Clamp(n: int) | Reply(reply: Option<int>) | FirstTen

  /** The slice bound each rule gives for `found` reachable destinations. */
  function Wanted(rule: CountRule, found: nat): (r: int)
    ensures rule.Clamp? ==> r <= found
    ensures rule == Reply(None) ==> r == found
  {
    match rule
    case Clamp(n) => if n > found then found else n
    case Reply(reply) => if reply.None? then found else reply.value
    case FirstTen => 10
  }

  // ---------------------------------------------------------------------
  // The selection

  /** The selected destinations, as three aligned lists, and the
      coordinates stored for later plotting (`None` when nothing was
      reachable and the stored coordinates were left alone). */
  datatype Selection<C> = Selection(nodes: seq<Node>, names: seq<string>, dists: seq<nat>, coords: Option<seq<C>>)

  /** The position of the first occurrence of `x`. */
  function IndexOf(s: seq<Node>, x: Node): (r: nat)
    requires x in s
    ensures r < |s| && s[r] == x
    ensures forall j :: 0 <= j < r ==> s[j] != x
  {
    if s[0] == x then 0 else 1 + IndexOf(s[1..], x)
  }

  function Nodes(s: seq<Ranked>): (r: seq<Node>)
    ensures |r| == |s| && forall i :: 0 <= i < |s| ==> r[i] == s[i].node
  {
    if s == [] then [] else [s[0].node] + Nodes(s[1..])
  }

  function Names(s: seq<Ranked>): (r: seq<string>)
    ensures |r| == |s| && forall i :: 0 <= i < |s| ==> r[i] == s[i].name
  {
    if s == [] then [] else [s[0].name] + Names(s[1..])
  }

  function Dists(s: seq<Ranked>): (r: seq<nat>)
    ensures |r| == |s| && forall i :: 0 <= i < |s| ==> r[i] == s[i].dist
  {
    if s == [] then [] else [s[0].dist] + Dists(s[1..])
  }

  /** The coordinates of each node, looked up at its first occurrence
      among the destinations. */
  function CoordsOf<C>(selected: seq<Node>, nodes: seq<Node>, coords: seq<C>): (r: seq<C>)
    requires |coords| == |nodes|
    requires forall i :: 0 <= i < |selected| ==> selected[i] in nodes
    ensures |r| == |selected|
    ensures forall i :: 0 <= i < |selected| ==> r[i] == coords[IndexOf(nodes, selected[i])]
  {
    if selected == [] then []
    else [coords[IndexOf(nodes, selected[0])]] + CoordsOf(selected[1..], nodes, coords)
  }

  /** The closest reachable destinations under a count rule. */
  function SelectClosest<C>(dist: Distance, nodes: seq<Node>, names: seq<string>, coords: seq<C>, rule: CountRule)
    : (r: Result<Selection<C>, SearchError>)
    requires |names| == |nodes| && |coords| == |nodes|
    ensures r.Failure? <==> exists j :: 0 <= j < |nodes| && Fatal(dist(nodes[j]))
    ensures r.Success? ==> |r.value.nodes| == |r.value.names| == |r.value.dists|
    ensures r.Success? ==> (r.value.coords.None? <==> Reachable(dist, nodes, names, 0).value == [])
    ensures r.Success? && r.value.coords.None? ==> r.value.nodes == [] && r.value.names == [] && r.value.dists == []
    ensures r.Success? && r.value.coords.Some? ==> |r.value.coords.value| == |r.value.nodes|
    ensures r.Success? && r.value.coords.Some? ==>
              forall i :: 0 <= i < |r.value.nodes| ==>
                r.value.nodes[i] in nodes && r.value.coords.value[i] == coords[IndexOf(nodes, r.value.nodes[i])]
  {
    match Reachable(dist, nodes, names, 0)
    case Failure(e) => Failure(e)
    case Success(found) =>
      if found == [] then Success(Selection([], [], [], None))
      else
        var sorted := SortByDistance(found);
        var chosen := Prefix(sorted, Wanted(rule, |sorted|));
        var chosenNodes := Nodes(chosen);
        assert forall i :: 0 <= i < |chosenNodes| ==> chosenNodes[i] in nodes by {
          forall i | 0 <= i < |chosenNodes| ensures chosenNodes[i] in nodes {
            assert chosen[i] in multiset(sorted);
            assert chosen[i] in found;
          }
        }
        Success(Selection(chosenNodes, Names(chosen), Dists(chosen), Some(CoordsOf(chosenNodes, nodes, coords))))
  }

  /** What the selection keeps: a prefix of the stably sorted reachable
      destinations, of the length the count rule asks for. */
  lemma SelectionIsClosest<C>(dist: Distance, nodes: seq<Node>, names: seq<string>, coords: seq<C>, rule: CountRule)
    requires |names| == |nodes| && |coords| == |nodes|
    requires SelectClosest(dist, nodes, names, coords, rule).Success?
    ensures var found := Reachable(dist, nodes, names, 0).value;
            var sel := SelectClosest(dist, nodes, names, coords, rule).value;
            var sorted := SortByDistance(found);
            && |sel.nodes| <= |found|
            && (forall i :: 0 <= i < |sel.nodes| ==>
                  Ranked(sel.dists[i], sel.nodes[i], sel.names[i]) == sorted[i])
            && (forall i, j :: 0 <= i < |sel.nodes| <= j < |sorted| ==> sel.dists[i] <= sorted[j].dist)
            && (found != [] && Wanted(rule, |found|) >= 0 ==> |sel.nodes| == Min(Wanted(rule, |found|), |found|))
  {
  }

  /** The package window keeps as many as were asked for, or all when
      fewer are reachable; an empty reply keeps all; the single-file
      window keeps at most ten. */
  lemma SelectionSize<C>(dist: Distance, nodes: seq<Node>, names: seq<string>, coords: seq<C>, rule: CountRule)
    requires |names| == |nodes| && |coords| == |nodes|
    requires SelectClosest(dist, nodes, names, coords, rule).Success?
    ensures var found := |Reachable(dist, nodes, names, 0).value|;
            var kept := |SelectClosest(dist, nodes, names, coords, rule).value.nodes|;
            && (rule.Clamp? && rule.n >= 0 ==> kept == Min(rule.n, found))
            && (rule == Reply(None) ==> kept == found)
            && (rule == FirstTen ==> kept == Min(10, found))
  {
    SelectionIsClosest(dist, nodes, names, coords, rule);
  }

  /** Each selected destination is a reachable one: its distance is the
      path length the library reports for its node, and its name is the
      one listed with that node. */
  lemma SelectedAreReachable<C>(dist: Distance, nodes: seq<Node>, names: seq<string>, coords: seq<C>,
                                rule: CountRule, i: nat)
    requires |names| == |nodes| && |coords| == |nodes|
    requires SelectClosest(dist, nodes, names, coords, rule).Success?
    requires i < |SelectClosest(dist, nodes, names, coords, rule).value.nodes|
    ensures var sel := SelectClosest(dist, nodes, names, coords, rule).value;
            && dist(sel.nodes[i]) == Success(sel.dists[i])
            && exists j :: 0 <= j < |nodes| && nodes[j] == sel.nodes[i] && names[j] == sel.names[i]
  {
    var found := Reachable(dist, nodes, names, 0).value;
    var sel := SelectClosest(dist, nodes, names, coords, rule).value;
    SelectionIsClosest(dist, nodes, names, coords, rule);
    var sorted := SortByDistance(found);
    var e := sorted[i];
    assert e == Ranked(sel.dists[i], sel.nodes[i], sel.names[i]);
    assert e in multiset(sorted);
    assert e in found;
    var j :| 0 <= j < |nodes| && e == Ranked(DistOf(dist(nodes[j])), nodes[j], names[j]) && dist(nodes[j]).Success?;
  }
}

=== FILE: search.dfy ===
/**
 * The hand-written bidirectional A* search of `RouteCalculator.bidirectional_a_star`.
 * Two frontiers grow from the source (over outgoing edges) and from the target (over
 * incoming edges); a node popped on one side that the other side has reached proposes a
 * meeting, and the loop stops once the best meeting cost is no more than the sum of the
 * two queue heads' priorities.
 */
module BidirectionalSearch {
  import opened Wrappers
  import opened Graph
  import opened PriorityQueue
  import opened Frontiers
  import opened ParentOrder

  /** The best meeting found so far: `best_cost` and `meeting_node` (absent while `best_cost` is infinite). */
  datatype Meeting = Meeting(cost: nat, node: Node)

  datatype Search = Search(fwd: Frontier, bwd: Frontier, best: Option<Meeting>)

  /** The best meeting cost never goes up, and a recorded meeting is never dropped. */
  ghost predicate NoWorse(before: Option<Meeting>, after: Option<Meeting>) {
    before.Some? ==> after.Some? && after.value.cost <= before.value.cost
  }

  /** How the loop ended: it stopped with a final state, or the model's step bound ran out. */
  datatype Halt = Halted(final: Search) | Exhausted

  /**
   * One half of a round: pop the queue head; if the other side has reached it, propose it as
   * meeting node with the popped cost plus the other side's cost, kept only when strictly
   * cheaper than the best so far; then relax every neighbour of the popped node.
   */
  function Expand(g: Graph, h: Heuristic, dir: Direction, ghost root: Node, goal: Node,
                  f: Frontier, other: map<Node, nat>, best: Option<Meeting>): (r: (Frontier, Option<Meeting>))
    requires Valid(g, dir, root, f) && f.queue != []
    ensures Valid(g, dir, root, r.0)
    ensures CostsOnlyDecrease(f.visited, r.0.visited)
    ensures NoWorse(best, r.1)
    ensures r.1 != best ==>
              && r.1.Some?
              && r.1.value.node == f.queue[0].node
              && r.1.value.node in other
              && r.1.value.cost == f.queue[0].cost + other[r.1.value.node]
              && (best.Some? ==> r.1.value.cost < best.value.cost)
    ensures f.queue[0].node in other && best.None? ==> r.1.Some?
  {
    var e := Peek(f.queue);
    var popped := f.(queue := f.queue[1..]);
    var best' :=
      if e.node in other && (best.None? || e.cost + other[e.node] < best.value.cost)
      then Some(Meeting(e.cost + other[e.node], e.node))
      else best;
    (RelaxAll(g, h, dir, root, goal, e.node, Neighbors(g, dir, e.node), popped), best')
  }

  /** The frontier an expansion leaves: the popped queue with the head's neighbours relaxed. */
  lemma ExpandRelaxesPopped(g: Graph, h: Heuristic, dir: Direction, root: Node, goal: Node,
                            f: Frontier, other: map<Node, nat>, best: Option<Meeting>)
    requires Valid(g, dir, root, f) && f.queue != []
    ensures Valid(g, dir, root, f.(queue := f.queue[1..]))
    ensures Expand(g, h, dir, root, goal, f, other, best).0
            == RelaxAll(g, h, dir, root, goal, f.queue[0].node, Neighbors(g, dir, f.queue[0].node), f.(queue := f.queue[1..]))
  {
  }

  /**
   * Expanding pops the queue head and relaxes its neighbours: the head leaves the queue,
   * the rest stays, and every entry added is a neighbour of the popped node at its cost
   * through it.
   */
  lemma ExpandQueues(g: Graph, h: Heuristic, dir: Direction, root: Node, goal: Node,
                     f: Frontier, other: map<Node, nat>, best: Option<Meeting>)
    requires Valid(g, dir, root, f) && f.queue != []
    ensures RelaxedFrom(g, dir, f.queue[0].node, f.visited[f.queue[0].node], Neighbors(g, dir, f.queue[0].node),
                        f.(queue := f.queue[1..]), Expand(g, h, dir, root, goal, f, other, best).0)
    ensures multiset(Expand(g, h, dir, root, goal, f, other, best).0.queue)[f.queue[0]]
            == multiset(f.queue)[f.queue[0]] - 1
  {
    var e := f.queue[0];
    var popped := f.(queue := f.queue[1..]);
    ExpandRelaxesPopped(g, h, dir, root, goal, f, other, best);
    var r := Expand(g, h, dir, root, goal, f, other, best).0;
    RelaxAllOnlyAdds(g, h, dir, root, goal, e.node, Neighbors(g, dir, e.node), popped);
    assert f.queue == [e] + f.queue[1..];
    // The head is never queued again: a step out of it cannot undercut its own cost.
    assert e !in multiset(r.queue) - multiset(popped.queue);
  }

  /** Expanding keeps every queued entry keyed towards `goal`. */
  lemma ExpandKeepsKeys(g: Graph, h: Heuristic, dir: Direction, root: Node, goal: Node,
                        f: Frontier, other: map<Node, nat>, best: Option<Meeting>)
    requires Valid(g, dir, root, f) && f.queue != [] && Keyed(h, goal, f)
    ensures Keyed(h, goal, Expand(g, h, dir, root, goal, f, other, best).0)
  {
    var e := f.queue[0];
    var popped := f.(queue := f.queue[1..]);
    ExpandRelaxesPopped(g, h, dir, root, goal, f, other, best);
    assert Keyed(h, goal, popped) by {
      forall x | x in popped.queue
        ensures x.priority == x.cost + h(x.node, goal) && x.node in popped.visited && popped.visited[x.node] <= x.cost
      {
        assert x in f.queue;
      }
    }
    RelaxAllKeepsKeys(g, h, dir, root, goal, e.node, Neighbors(g, dir, e.node), popped);
  }

  /**
   * After an expansion a node is queued when it was reached for the first time, or was
   * queued before and is not the node just popped.
   */
  lemma ExpandKeepsQueued(g: Graph, h: Heuristic, dir: Direction, root: Node, goal: Node,
                          f: Frontier, other: map<Node, nat>, best: Option<Meeting>, w: Node)
    requires Valid(g, dir, root, f) && f.queue != []
    ensures var r := Expand(g, h, dir, root, goal, f, other, best).0;
            w in r.visited && (w !in f.visited || (Pending(f, w) && w != f.queue[0].node)) ==> Pending(r, w)
  {
    var e := f.queue[0];
    var popped := f.(queue := f.queue[1..]);
    ExpandRelaxesPopped(g, h, dir, root, goal, f, other, best);
    var r := Expand(g, h, dir, root, goal, f, other, best).0;
    var nbs := Neighbors(g, dir, e.node);
    if w in r.visited {
      if w !in f.visited {
        RelaxAllQueuesNew(g, h, dir, root, goal, e.node, nbs, popped);
      } else if Pending(f, w) && w != e.node {
        var x :| x in f.queue && x.node == w;
        assert f.queue == [e] + popped.queue;
        assert x in popped.queue;
        RelaxAllOnlyAdds(g, h, dir, root, goal, e.node, nbs, popped);
        PendingKept(popped, r, w);
      }
    }
  }

  /** Expanding keeps a frontier explored: the popped node leaves the queue with all its neighbours reached. */
  lemma ExpandExplores(g: Graph, h: Heuristic, dir: Direction, root: Node, goal: Node,
                       f: Frontier, other: map<Node, nat>, best: Option<Meeting>)
    requires Valid(g, dir, root, f) && f.queue != [] && Explored(g, dir, f)
    ensures Explored(g, dir, Expand(g, h, dir, root, goal, f, other, best).0)
  {
    var u0 := f.queue[0].node;
    ExpandRelaxesPopped(g, h, dir, root, goal, f, other, best);
    var r := Expand(g, h, dir, root, goal, f, other, best).0;
    forall u | u in r.visited ensures Pending(r, u) || forall v :: Linked(g, dir, u, v) ==> v in r.visited {
      ExpandKeepsQueued(g, h, dir, root, goal, f, other, best, u);
      if u == u0 {
        assert forall v :: Linked(g, dir, u, v) ==> v in Neighbors(g, dir, u0);
      }
    }
  }

  /**
   * Nothing a halt without a meeting would need is lost: both frontiers are explored, and
   * while no meeting is known the target, once reached forward, is still queued forward, and
   * the source, once reached backward, is still queued backward.
   */
  ghost predicate Complete(g: Graph, s: Node, t: Node, st: Search) {
    && Explored(g, Forward, st.fwd)
    && Explored(g, Backward, st.bwd)
    && (st.best.None? ==> (t in st.fwd.visited ==> Pending(st.fwd, t)) && (s in st.bwd.visited ==> Pending(st.bwd, s)))
  }

  /**
   * A round keeps the search complete. Popping `t` forward (or `s` backward) meets the other
   * side's root, so a round that leaves the best meeting absent popped neither.
   */
  lemma RoundCompletes(g: Graph, h: Heuristic, s: Node, t: Node, st: Search)
    requires Inv(g, s, t, st) && st.fwd.queue != [] && st.bwd.queue != []
    requires Complete(g, s, t, st)
    ensures Complete(g, s, t, Round(g, h, s, t, st))
  {
    var (fwd, best1) := Expand(g, h, Forward, s, t, st.fwd, st.bwd.visited, st.best);
    var (bwd, best2) := Expand(g, h, Backward, t, s, st.bwd, fwd.visited, best1);
    ExpandExplores(g, h, Forward, s, t, st.fwd, st.bwd.visited, st.best);
    ExpandExplores(g, h, Backward, t, s, st.bwd, fwd.visited, best1);
    if best2.None? {
      ExpandKeepsQueued(g, h, Forward, s, t, st.fwd, st.bwd.visited, st.best, t);
      ExpandKeepsQueued(g, h, Backward, t, s, st.bwd, fwd.visited, best1, s);
    }
  }

  /** `RoundCompletes` for every search that may run another round. */
  lemma RoundComplete(g: Graph, h: Heuristic, s: Node, t: Node, st: Search)
    requires Inv(g, s, t, st) && st.fwd.queue != [] && st.bwd.queue != []
    ensures Complete(g, s, t, st) ==> Complete(g, s, t, Round(g, h, s, t, st))
  {
    if Complete(g, s, t, st) {
      RoundCompletes(g, h, s, t, st);
    }
  }

  /** The whole-search invariant: both frontiers valid, and a meeting node reached by both. */
  ghost predicate Inv(g: Graph, s: Node, t: Node, st: Search) {
    && Valid(g, Forward, s, st.fwd)
    && Valid(g, Backward, t, st.bwd)
    && (st.best.Some? ==> st.best.value.node in st.fwd.visited && st.best.value.node in st.bwd.visited)
  }

  /** The state before the loop: each queue holds its start node keyed by the heuristic to the other end. */
  function Initial(h: Heuristic, s: Node, t: Node): (st: Search)
    ensures forall g :: Inv(g, s, t, st)
    ensures st.fwd.queue == [Entry(h(s, t), 0, s)] && st.bwd.queue == [Entry(h(t, s), 0, t)]
    ensures st.best == None
    ensures KeyedSearch(h, s, t, st)
  {
    Search(Frontier([Entry(h(s, t), 0, s)], map[s := 0], map[s := None]),
           Frontier([Entry(h(t, s), 0, t)], map[t := 0], map[t := None]),
           None)
  }

  /** Forward entries are keyed towards `t`, backward entries towards `s`. */
  ghost predicate KeyedSearch(h: Heuristic, s: Node, t: Node, st: Search) {
    Keyed(h, t, st.fwd) && Keyed(h, s, st.bwd)
  }

  /** The stopping test `best_cost <= min_forward_priority + min_backward_priority`. */
  predicate StopRule(st: Search)
    requires st.fwd.queue != [] && st.bwd.queue != []
  {
    st.best.Some? && st.best.value.cost <= st.fwd.queue[0].priority + st.bwd.queue[0].priority
  }

  /** The loop has nothing more to do: a queue is empty or the stopping test holds. */
  predicate Stopped(st: Search) {
    st.fwd.queue == [] || st.bwd.queue == [] || StopRule(st)
  }

  /** One loop iteration: expand forward, then expand backward against the updated forward costs. */
  function Round(g: Graph, h: Heuristic, s: Node, t: Node, st: Search): (r: Search)
    requires Inv(g, s, t, st) && st.fwd.queue != [] && st.bwd.queue != []
    ensures Inv(g, s, t, r)
    ensures NoWorse(st.best, r.best)
    ensures CostsOnlyDecrease(st.fwd.visited, r.fwd.visited)
    ensures CostsOnlyDecrease(st.bwd.visited, r.bwd.visited)
  {
    var (fwd, best1) := Expand(g, h, Forward, s, t, st.fwd, st.bwd.visited, st.best);
    var (bwd, best2) := Expand(g, h, Backward, t, s, st.bwd, fwd.visited, best1);
    Search(fwd, bwd, best2)
  }

  /**
   * A round pops both queue heads and relaxes their neighbours, and a new meeting is at one
   * of the two popped nodes.
   */
  lemma RoundQueues(g: Graph, h: Heuristic, s: Node, t: Node, st: Search)
    requires Inv(g, s, t, st) && st.fwd.queue != [] && st.bwd.queue != []
    ensures var r, u := Round(g, h, s, t, st), st.fwd.queue[0].node;
            RelaxedFrom(g, Forward, u, st.fwd.visited[u], Neighbors(g, Forward, u), st.fwd.(queue := st.fwd.queue[1..]), r.fwd)
    ensures var r, u := Round(g, h, s, t, st), st.bwd.queue[0].node;
            RelaxedFrom(g, Backward, u, st.bwd.visited[u], Neighbors(g, Backward, u), st.bwd.(queue := st.bwd.queue[1..]), r.bwd)
    ensures var r := Round(g, h, s, t, st);
            && multiset(r.fwd.queue)[st.fwd.queue[0]] == multiset(st.fwd.queue)[st.fwd.queue[0]] - 1
            && multiset(r.bwd.queue)[st.bwd.queue[0]] == multiset(st.bwd.queue)[st.bwd.queue[0]] - 1
    ensures var r := Round(g, h, s, t, st);
            r.best != st.best ==> r.best.Some? && r.best.value.node in {st.fwd.queue[0].node, st.bwd.queue[0].node}
  {
    var (fwd, best1) := Expand(g, h, Forward, s, t, st.fwd, st.bwd.visited, st.best);
    ExpandQueues(g, h, Forward, s, t, st.fwd, st.bwd.visited, st.best);
    ExpandQueues(g, h, Backward, t, s, st.bwd, fwd.visited, best1);
  }

  /** A round keeps forward entries keyed towards `t` and backward entries towards `s`. */
  lemma RoundKeepsKeys(g: Graph, h: Heuristic, s: Node, t: Node, st: Search)
    requires Inv(g, s, t, st) && st.fwd.queue != [] && st.bwd.queue != []
    requires KeyedSearch(h, s, t, st)
    ensures KeyedSearch(h, s, t, Round(g, h, s, t, st))
  {
    var (fwd, best1) := Expand(g, h, Forward, s, t, st.fwd, st.bwd.visited, st.best);
    ExpandKeepsKeys(g, h, Forward, s, t, st.fwd, st.bwd.visited, st.best);
    ExpandKeepsKeys(g, h, Backward, t, s, st.bwd, fwd.visited, best1);
  }

  /** `RoundKeepsKeys` for every search that may run another round. */
  lemma RoundKeyed(g: Graph, h: Heuristic, s: Node, t: Node, st: Search)
    requires Inv(g, s, t, st) && st.fwd.queue != [] && st.bwd.queue != []
    ensures KeyedSearch(h, s, t, st) ==> KeyedSearch(h, s, t, Round(g, h, s, t, st))
  {
    if KeyedSearch(h, s, t, st) {
      RoundKeepsKeys(g, h, s, t, st);
    }
  }

  /** A parent chain read backwards is a path: each node is joined to the next by an edge. */
  lemma ForwardChainIsPath(g: Graph, s: Node, f: Frontier, c: seq<Node>)
    requires Valid(g, Forward, s, f)
    requires |c| >= 1
    requires forall i :: 0 <= i < |c| - 1 ==> c[i] in f.parents && f.parents[c[i]] == Some(c[i + 1])
    requires c[|c| - 1] in f.parents && f.parents[c[|c| - 1]] == None
    ensures IsRoute(g, s, c[0], Reverse(c))
  {
    var r := Reverse(c);
    forall i | 0 <= i < |r| - 1 ensures HasEdge(g, r[i], r[i + 1]) {
      var j := |c| - 2 - i;
      assert r[i] == c[j + 1] && r[i + 1] == c[j];
      assert Linked(g, Forward, c[j + 1], c[j]);
    }
  }

  /** A backward parent chain read as it is walks edges from its first node to the target. */
  lemma BackwardChainIsPath(g: Graph, t: Node, f: Frontier, c: seq<Node>)
    requires Valid(g, Backward, t, f)
    requires |c| >= 1
    requires forall i :: 0 <= i < |c| - 1 ==> c[i] in f.parents && f.parents[c[i]] == Some(c[i + 1])
    requires c[|c| - 1] in f.parents && f.parents[c[|c| - 1]] == None
    ensures IsRoute(g, c[0], t, c)
  {
    forall i | 0 <= i < |c| - 1 ensures HasEdge(g, c[i], c[i + 1]) {
      assert Linked(g, Backward, c[i + 1], c[i]);
    }
  }

  /** A route to `m`, an edge `m -> b` and a route from `b` join into one route. */
  lemma JoinRoutes(g: Graph, s: Node, m: Node, b: Node, t: Node, p: seq<Node>, q: seq<Node>)
    requires IsRoute(g, s, m, p) && HasEdge(g, m, b) && IsRoute(g, b, t, q)
    ensures IsRoute(g, s, t, p + q)
  {
    var r := p + q;
    forall i | 0 <= i < |r| - 1 ensures HasEdge(g, r[i], r[i + 1]) {
      if i < |p| - 1 {
        assert r[i] == p[i] && r[i + 1] == p[i + 1];
      } else if i == |p| - 1 {
        assert r[i] == m && r[i + 1] == b;
      } else {
        assert r[i] == q[i - |p|] && r[i + 1] == q[i + 1 - |p|];
      }
    }
  }

  /**
   * The path reconstruction: the forward parent chain from the meeting node `m`, reversed,
   * followed by the backward parent chain that starts at the backward parent of `m`.
   */
  function Reconstruct(g: Graph, s: Node, t: Node, fwd: Frontier, bwd: Frontier, m: Node)
    : (r: Result<seq<Node>, SearchError>)
    requires Valid(g, Forward, s, fwd) && Valid(g, Backward, t, bwd)
    requires m in fwd.visited && m in bwd.visited
    ensures r.Success? ==> IsRoute(g, s, t, r.value) && m in r.value
    ensures r.Failure? ==> r.error == ParentCycle
  {
    match Chain(fwd.parents, m, |fwd.parents|)
    case None => Failure(ParentCycle)
    case Some(fc) =>
      var forward := Reverse(fc);
      ForwardChainIsPath(g, s, fwd, fc);
      assert forward[|forward| - 1] == m;
      match bwd.parents[m]
      case None =>
        Success(forward)
      case Some(b) =>
        match Chain(bwd.parents, b, |bwd.parents|)
        case None => Failure(ParentCycle)
        case Some(bc) =>
          BackwardChainIsPath(g, t, bwd, bc);
          assert Linked(g, Backward, b, m);
          JoinRoutes(g, s, m, b, t, forward, bc);
          assert (forward + bc)[|forward| - 1] == m;
          Success(forward + bc)
  }

  /** Expanding one side keeps its parent links ordered. */
  lemma ExpandOrdered(g: Graph, h: Heuristic, dir: Direction, root: Node, goal: Node,
                      f: Frontier, other: map<Node, nat>, best: Option<Meeting>, stamp: map<Node, nat>, clock: nat)
    returns (stamp': map<Node, nat>, clock': nat)
    requires Valid(g, dir, root, f) && f.queue != [] && Ordered(f, stamp, clock)
    ensures Ordered(Expand(g, h, dir, root, goal, f, other, best).0, stamp', clock')
  {
    var e := f.queue[0];
    var popped := f.(queue := f.queue[1..]);
    assert Ordered(popped, stamp, clock) by {
      forall a, b | Before(f, stamp, a, b) ensures Before(popped, stamp, a, b) { }
    }
    stamp', clock' := RelaxAllOrdered(g, h, dir, root, goal, e.node, Neighbors(g, dir, e.node), popped, stamp, clock);
  }

  /** A round keeps both sides' parent links ordered. */
  lemma RoundOrdered(g: Graph, h: Heuristic, s: Node, t: Node, st: Search,
                     fs: map<Node, nat>, fc: nat, bs: map<Node, nat>, bc: nat)
    returns (fs': map<Node, nat>, fc': nat, bs': map<Node, nat>, bc': nat)
    requires Inv(g, s, t, st) && st.fwd.queue != [] && st.bwd.queue != []
    requires Ordered(st.fwd, fs, fc) && Ordered(st.bwd, bs, bc)
    ensures Ordered(Round(g, h, s, t, st).fwd, fs', fc') && Ordered(Round(g, h, s, t, st).bwd, bs', bc')
  {
    var (fwd, best1) := Expand(g, h, Forward, s, t, st.fwd, st.bwd.visited, st.best);
    fs', fc' := ExpandOrdered(g, h, Forward, s, t, st.fwd, st.bwd.visited, st.best, fs, fc);
    bs', bc' := ExpandOrdered(g, h, Backward, t, s, st.bwd, fwd.visited, best1, bs, bc);
  }

  /** Some stamping orders the frontier's parent links. */
  ghost predicate HasOrder(f: Frontier) {
    exists stamp: map<Node, nat>, clock: nat :: Ordered(f, stamp, clock)
  }

  /** A round keeps both sides orderable. */
  lemma RoundHasOrder(g: Graph, h: Heuristic, s: Node, t: Node, st: Search)
    requires Inv(g, s, t, st) && st.fwd.queue != [] && st.bwd.queue != []
    ensures HasOrder(st.fwd) && HasOrder(st.bwd) ==>
              HasOrder(Round(g, h, s, t, st).fwd) && HasOrder(Round(g, h, s, t, st).bwd)
  {
    if HasOrder(st.fwd) && HasOrder(st.bwd) {
      var fs, fc :| Ordered(st.fwd, fs, fc);
      var bs, bc :| Ordered(st.bwd, bs, bc);
      var fs', fc', bs', bc' := RoundOrdered(g, h, s, t, st, fs, fc, bs, bc);
    }
  }

  /** The search loop, run for at most `fuel` rounds. */
  function Run(g: Graph, h: Heuristic, s: Node, t: Node, st: Search, fuel: nat): (r: Halt)
    requires Inv(g, s, t, st)
    ensures r.Halted? ==> Inv(g, s, t, r.final) && Stopped(r.final)
    ensures r.Halted? ==> NoWorse(st.best, r.final.best)
    ensures r.Halted? ==> CostsOnlyDecrease(st.fwd.visited, r.final.fwd.visited)
                          && CostsOnlyDecrease(st.bwd.visited, r.final.bwd.visited)
    ensures Stopped(st) ==> r == Halted(st)
    ensures r.Halted? && HasOrder(st.fwd) && HasOrder(st.bwd) ==>
              HasOrder(r.final.fwd) && HasOrder(r.final.bwd)
    ensures r.Halted? && KeyedSearch(h, s, t, st) ==> KeyedSearch(h, s, t, r.final)
    ensures r.Halted? && Complete(g, s, t, st) ==> Complete(g, s, t, r.final)
    decreases fuel
  {
    if Stopped(st) then Halted(st)
    else if fuel == 0 then Exhausted
    else
      RoundHasOrder(g, h, s, t, st);
      RoundKeyed(g, h, s, t, st);
      RoundComplete(g, h, s, t, st);
      Run(g, h, s, t, Round(g, h, s, t, st), fuel - 1)
  }

  /** `x` occurs exactly once in `p`. */
  ghost predicate OccursOnce(p: seq<Node>, x: Node) {
    exists k :: 0 <= k < |p| && p[k] == x && forall j :: 0 <= j < |p| && p[j] == x ==> j == k
  }

  /** With ordered forward links the forward walk from `m` completes and holds `m` only at its start. */
  lemma ForwardWalkAvoids(g: Graph, s: Node, fwd: Frontier, fs: map<Node, nat>, fc: nat, m: Node)
    requires Valid(g, Forward, s, fwd) && Ordered(fwd, fs, fc) && m in fwd.visited
    ensures Chain(fwd.parents, m, |fwd.parents|).Some?
    ensures forall j :: 1 <= j < |Chain(fwd.parents, m, |fwd.parents|).value| ==>
              Chain(fwd.parents, m, |fwd.parents|).value[j] != m
  {
    BelowBound(fwd, fs, m);
    assert |fwd.parents| == |fwd.visited| by { assert fwd.parents.Keys == fwd.visited.Keys; }
    ChainComplete(g, Forward, s, fwd, fs, fc, m, |fwd.parents|);
  }

  /** With ordered backward links the backward walk from the parent `b` of `m` completes and never meets `m`. */
  lemma BackwardWalkAvoids(g: Graph, t: Node, bwd: Frontier, bs: map<Node, nat>, bc: nat, m: Node, b: Node)
    requires Valid(g, Backward, t, bwd) && Ordered(bwd, bs, bc) && m in bwd.visited
    requires bwd.parents[m] == Some(b)
    ensures Chain(bwd.parents, b, |bwd.parents|).Some?
    ensures forall j :: 0 <= j < |Chain(bwd.parents, b, |bwd.parents|).value| ==>
              Chain(bwd.parents, b, |bwd.parents|).value[j] != m
  {
    assert Before(bwd, bs, b, m);
    BelowBound(bwd, bs, b);
    assert |bwd.parents| == |bwd.visited| by { assert bwd.parents.Keys == bwd.visited.Keys; }
    ChainComplete(g, Backward, t, bwd, bs, bc, b, |bwd.parents|);
  }

  /** A walk that holds `m` only at its start, reversed and followed by a walk without `m`, holds `m` once. */
  lemma OnceInJoin(c: seq<Node>, d: seq<Node>, m: Node)
    requires |c| >= 1 && c[0] == m && forall j :: 1 <= j < |c| ==> c[j] != m
    requires forall j :: 0 <= j < |d| ==> d[j] != m
    ensures OccursOnce(Reverse(c) + d, m)
  {
    var r := Reverse(c);
    var p := r + d;
    var k := |c| - 1;
    assert p[k] == r[k] == c[0];
    forall j | 0 <= j < |p| && j != k ensures p[j] != m {
      if j < k {
        assert p[j] == r[j] == c[|c| - 1 - j];
      } else {
        assert p[j] == d[j - |c|];
      }
    }
    assert 0 <= k < |p| && p[k] == m;
  }

  /**
   * With ordered parent links both walks reach their roots, so reconstruction succeeds, and
   * the meeting node occurs once: the forward walk holds it only at its start and the
   * backward walk starts after it.
   */
  lemma ReconstructSucceeds(g: Graph, s: Node, t: Node, fwd: Frontier, bwd: Frontier, m: Node,
                            fs: map<Node, nat>, fc: nat, bs: map<Node, nat>, bc: nat)
    requires Valid(g, Forward, s, fwd) && Valid(g, Backward, t, bwd)
    requires Ordered(fwd, fs, fc) && Ordered(bwd, bs, bc)
    requires m in fwd.visited && m in bwd.visited
    ensures Reconstruct(g, s, t, fwd, bwd, m).Success?
    ensures OccursOnce(Reconstruct(g, s, t, fwd, bwd, m).value, m)
  {
    ForwardWalkAvoids(g, s, fwd, fs, fc, m);
    var fchain := Chain(fwd.parents, m, |fwd.parents|).value;
    match bwd.parents[m]
    case None =>
      assert Reconstruct(g, s, t, fwd, bwd, m) == Success(Reverse(fchain));
      OnceInJoin(fchain, [], m);
      assert Reverse(fchain) + [] == Reverse(fchain);
    case Some(b) =>
      BackwardWalkAvoids(g, t, bwd, bs, bc, m, b);
      var bchain := Chain(bwd.parents, b, |bwd.parents|).value;
      assert Reconstruct(g, s, t, fwd, bwd, m) == Success(Reverse(fchain) + bchain);
      OnceInJoin(fchain, bchain, m);
  }

  /** A search that halts with a meeting reconstructs its route, through the meeting node once. */
  lemma MeetingGivesRoute(g: Graph, h: Heuristic, s: Node, t: Node, fuel: nat)
    requires Outcome(g, h, s, t, fuel).Halted? && Outcome(g, h, s, t, fuel).final.best.Some?
    ensures var st := Outcome(g, h, s, t, fuel).final;
            && Inv(g, s, t, st)
            && Reconstruct(g, s, t, st.fwd, st.bwd, st.best.value.node).Success?
            && OccursOnce(Reconstruct(g, s, t, st.fwd, st.bwd, st.best.value.node).value, st.best.value.node)
  {
    var st := Outcome(g, h, s, t, fuel).final;
    var fs, fc :| Ordered(st.fwd, fs, fc);
    var bs, bc :| Ordered(st.bwd, bs, bc);
    ReconstructSucceeds(g, s, t, st.fwd, st.bwd, st.best.value.node, fs, fc, bs, bc);
  }

  /** The initial frontiers are ordered: each holds only its root, stamped 0. */
  lemma InitialHasOrder(h: Heuristic, s: Node, t: Node)
    ensures HasOrder(Initial(h, s, t).fwd) && HasOrder(Initial(h, s, t).bwd)
  {
    var init := Initial(h, s, t);
    assert Ordered(init.fwd, map[s := 0], 1);
    assert Ordered(init.bwd, map[t := 0], 1);
  }

  /** The initial search is complete: each root is queued on its own side. */
  lemma InitialComplete(g: Graph, h: Heuristic, s: Node, t: Node)
    ensures Complete(g, s, t, Initial(h, s, t))
  {
    var init := Initial(h, s, t);
    assert init.fwd.queue[0] in init.fwd.queue && init.bwd.queue[0] in init.bwd.queue;
  }

  /** The loop run from the initial state. */
  function Outcome(g: Graph, h: Heuristic, s: Node, t: Node, fuel: nat): (r: Halt)
    ensures r.Halted? ==> Inv(g, s, t, r.final) && Stopped(r.final)
    ensures r.Halted? ==> HasOrder(r.final.fwd) && HasOrder(r.final.bwd)
    ensures r.Halted? ==> Complete(g, s, t, r.final)
  {
    InitialHasOrder(h, s, t);
    InitialComplete(g, h, s, t);
    Run(g, h, s, t, Initial(h, s, t), fuel)
  }

  /**
   * When the search stops with both queues non-empty, the best meeting costs no more than the
   * two heads' costs plus their heuristic estimates towards the opposite ends.
   */
  lemma OutcomeStopsOnEstimate(g: Graph, h: Heuristic, s: Node, t: Node, fuel: nat)
    requires Outcome(g, h, s, t, fuel).Halted?
    ensures var st := Outcome(g, h, s, t, fuel).final;
            KeyedSearch(h, s, t, st)
    ensures var st := Outcome(g, h, s, t, fuel).final;
            st.fwd.queue != [] && st.bwd.queue != [] ==>
              && st.best.Some?
              && st.best.value.cost <= st.fwd.queue[0].cost + h(st.fwd.queue[0].node, t)
                                       + st.bwd.queue[0].cost + h(st.bwd.queue[0].node, s)
  {
    var st := Outcome(g, h, s, t, fuel).final;
    if st.fwd.queue != [] && st.bwd.queue != [] {
      assert st.fwd.queue[0] in st.fwd.queue && st.bwd.queue[0] in st.bwd.queue;
    }
  }

  /** With the forward queue empty and the frontier explored, a path that starts reached stays reached. */
  lemma {:induction false} ClosedForward(g: Graph, f: Frontier, p: seq<Node>, i: nat)
    requires Explored(g, Forward, f) && f.queue == []
    requires IsPath(g, p) && p[0] in f.visited && i < |p|
    ensures p[i] in f.visited
    decreases i
  {
    if i > 0 {
      ClosedForward(g, f, p, i - 1);
      assert Linked(g, Forward, p[i - 1], p[i]);
    }
  }

  /** With the backward queue empty and the frontier explored, a path that ends reached is reached throughout. */
  lemma {:induction false} ClosedBackward(g: Graph, f: Frontier, p: seq<Node>, i: nat)
    requires Explored(g, Backward, f) && f.queue == []
    requires IsPath(g, p) && p[|p| - 1] in f.visited && i < |p|
    ensures p[i] in f.visited
    decreases |p| - i
  {
    if i < |p| - 1 {
      ClosedBackward(g, f, p, i + 1);
      assert Linked(g, Backward, p[i + 1], p[i]);
    }
  }

  /**
   * A search that halts without a meeting has emptied a queue, and that side's reached set
   * is closed under its links, holds its own root and not the other end: no route from `s`
   * to `t` exists.
   */
  lemma NoMeetingNoRoute(g: Graph, h: Heuristic, s: Node, t: Node, fuel: nat)
    requires Outcome(g, h, s, t, fuel).Halted? && Outcome(g, h, s, t, fuel).final.best.None?
    ensures forall p :: !IsRoute(g, s, t, p)
  {
    var st := Outcome(g, h, s, t, fuel).final;
    forall p ensures !IsRoute(g, s, t, p) {
      if IsRoute(g, s, t, p) {
        if st.fwd.queue == [] {
          ClosedForward(g, st.fwd, p, |p| - 1);
        } else {
          ClosedBackward(g, st.bwd, p, 0);
        }
      }
    }
  }

  /**
   * `bidirectional_a_star(G, source, target, heuristic)`: a route from `s` to `t`, or the
   * exception the source raises. `fuel` bounds the number of loop rounds.
   */
  function BidirectionalAStar(g: Graph, h: Heuristic, s: Node, t: Node, fuel: nat)
    : (r: Result<seq<Node>, SearchError>)
    ensures r.Success? ==> IsRoute(g, s, t, r.value)
    ensures r == Failure(NodeNotFound) <==> s !in g.nodes || t !in g.nodes
    ensures r == Failure(NoPath) <==>
              s in g.nodes && t in g.nodes
              && Outcome(g, h, s, t, fuel).Halted? && Outcome(g, h, s, t, fuel).final.best.None?
    ensures r == Failure(OutOfFuel) <==>
              s in g.nodes && t in g.nodes && Outcome(g, h, s, t, fuel).Exhausted?
    ensures r != Failure(ParentCycle) && r != Failure(Unsupported)
    ensures r.Success? ==> Outcome(g, h, s, t, fuel).Halted? && Outcome(g, h, s, t, fuel).final.best.Some?
    ensures r.Success? ==> OccursOnce(r.value, Outcome(g, h, s, t, fuel).final.best.value.node)
    ensures r == Failure(NoPath) ==> forall p :: !IsRoute(g, s, t, p)
  {
    if s !in g.nodes || t !in g.nodes then Failure(NodeNotFound)
    else
      match Outcome(g, h, s, t, fuel)
      case Exhausted => Failure(OutOfFuel)
      case Halted(st) =>
        match st.best
        case None =>
          NoMeetingNoRoute(g, h, s, t, fuel);
          Failure(NoPath)
        case Some(m) =>
          MeetingGivesRoute(g, h, s, t, fuel);
          Reconstruct(g, s, t, st.fwd, st.bwd, m.node)
  }
}

=== FILE: search_examples.dfy ===
/** A worked run of the bidirectional search on a three-node graph. */
module SearchExamples {
  import opened Wrappers
  import opened Graph
  import opened PriorityQueue
  import opened Frontiers
  import opened BidirectionalSearch

  /** Three nodes on a line at x = 0, 5, 10: a long direct edge 0 -> 2 and a short detour through 1. */
  function Detour(): Graph {
    Graph({0, 1, 2}, [Edge(0, 2, Some(20)), Edge(0, 1, Some(5)), Edge(1, 2, Some(5))])
  }

  /** Straight-line distance along the line. No edge is shorter than it, so it is consistent. */
  function LineDistance(u: Node, v: Node): nat {
    if u >= v then 5 * (u - v) else 5 * (v - u)
  }

  /** The forward frontier after the first expansion, which pops node 0. */
  function ForwardAfterRound(): Frontier {
    Frontier([Entry(10, 5, 1), Entry(20, 20, 2)],
             map[0 := 0, 2 := 20, 1 := 5], map[0 := None, 2 := Some(0), 1 := Some(0)])
  }

  /** The backward frontier after the first expansion, which pops node 2. */
  function BackwardAfterRound(): Frontier {
    Frontier([Entry(10, 5, 1), Entry(20, 20, 0)],
             map[2 := 0, 0 := 20, 1 := 5], map[2 := None, 0 := Some(2), 1 := Some(2)])
  }

  lemma DetourEdges()
    ensures HasEdge(Detour(), 0, 2) && HasEdge(Detour(), 0, 1) && HasEdge(Detour(), 1, 2)
    ensures Length(Detour(), 0, 2) == 20 && Length(Detour(), 0, 1) == 5 && Length(Detour(), 1, 2) == 5
  {
    assert Detour().edges[0] == Edge(0, 2, Some(20));
    assert Detour().edges[1] == Edge(0, 1, Some(5));
    assert Detour().edges[2] == Edge(1, 2, Some(5));
    LengthOfLastEdge(Detour(), 0, 2, 0);
    LengthOfLastEdge(Detour(), 0, 1, 1);
    LengthOfLastEdge(Detour(), 1, 2, 2);
  }

  /** An improvement on an empty queue leaves just the improved node queued. */
  lemma ImproveEmpty(h: Heuristic, goal: Node, cur: Node, nb: Node, cost: nat, f: Frontier)
    requires f.queue == []
    ensures Improve(h, goal, cur, nb, cost, f)
            == Frontier([Entry(cost + h(nb, goal), cost, nb)], f.visited[nb := cost], f.parents[nb := Some(cur)])
  {
    assert Push([], Entry(cost + h(nb, goal), cost, nb)) == [Entry(cost + h(nb, goal), cost, nb)];
  }

  /** Forward: the step 0 -> 2 reaches node 2 at cost 20. */
  lemma ForwardStepTo2()
    ensures Relax(Detour(), LineDistance, Forward, 0, 2, 0, 2, Frontier([], map[0 := 0], map[0 := None]))
            == Frontier([Entry(20, 20, 2)], map[0 := 0, 2 := 20], map[0 := None, 2 := Some(0)])
  {
    var f := Frontier([], map[0 := 0], map[0 := None]);
    ForwardImprovesTo2();
    ImproveEmpty(LineDistance, 2, 0, 2, 20, f);
    assert LineDistance(2, 2) == 0;
  }

  /** Forward: node 2 is new, so the step 0 -> 2 is an improvement at cost 20. */
  lemma ForwardImprovesTo2()
    ensures Relax(Detour(), LineDistance, Forward, 0, 2, 0, 2, Frontier([], map[0 := 0], map[0 := None]))
            == Improve(LineDistance, 2, 0, 2, 20, Frontier([], map[0 := 0], map[0 := None]))
  {
    DetourEdges();
    RelaxCases(Detour(), LineDistance, Forward, 0, 2, 0, 2, Frontier([], map[0 := 0], map[0 := None]), 20);
  }

  /** Forward: the step 0 -> 1 reaches node 1 at cost 5 and queues it ahead of node 2. */
  lemma ForwardStepTo1()
    ensures Valid(Detour(), Forward, 0, Frontier([Entry(20, 20, 2)], map[0 := 0, 2 := 20], map[0 := None, 2 := Some(0)]))
    ensures Relax(Detour(), LineDistance, Forward, 0, 2, 0, 1,
                  Frontier([Entry(20, 20, 2)], map[0 := 0, 2 := 20], map[0 := None, 2 := Some(0)]))
            == ForwardAfterRound()
  {
    ForwardStepTo2();
    DetourEdges();
    assert StepLength(Detour(), Forward, 0, 1) == 5 && LineDistance(1, 2) == 5;
    assert Push([Entry(20, 20, 2)], Entry(10, 5, 1)) == [Entry(10, 5, 1), Entry(20, 20, 2)];
  }

  /** Node 0's successors, in edge order. */
  lemma ForwardNeighbors()
    ensures Neighbors(Detour(), Forward, 0) == [2, 1]
  {
    var es := Detour().edges;
    assert es[..1] == [Edge(0, 2, Some(20))] && es[..1][..0] == [];
    assert es[..2] == [Edge(0, 2, Some(20)), Edge(0, 1, Some(5))] && es[..2][..1] == es[..1];
    assert Heads(es[..1], 0) == [2];
    assert Heads(es[..2], 0) == [2, 1];
  }

  /** Relaxing a list of two neighbours is relaxing the first, then the second. */
  lemma RelaxPair(g: Graph, h: Heuristic, dir: Direction, root: Node, goal: Node, cur: Node, a: Node, b: Node, f: Frontier)
    requires Valid(g, dir, root, f) && cur in f.visited && Linked(g, dir, cur, a) && Linked(g, dir, cur, b)
    ensures RelaxAll(g, h, dir, root, goal, cur, [a, b], f)
            == Relax(g, h, dir, root, goal, cur, b, Relax(g, h, dir, root, goal, cur, a, f))
  {
    assert [a, b][1..] == [b] && [b][1..] == [];
    var f1 := Relax(g, h, dir, root, goal, cur, a, f);
    assert RelaxAll(g, h, dir, root, goal, cur, [b], f1) == Relax(g, h, dir, root, goal, cur, b, f1);
  }

  /** The forward frontier with its root popped is valid, and node 0 links to nodes 2 and 1. */
  lemma ForwardStart()
    ensures Valid(Detour(), Forward, 0, Frontier([], map[0 := 0], map[0 := None]))
    ensures Linked(Detour(), Forward, 0, 2) && Linked(Detour(), Forward, 0, 1)
  {
    DetourEdges();
  }

  lemma ForwardRelaxations()
    ensures RelaxAll(Detour(), LineDistance, Forward, 0, 2, 0, [2, 1], Frontier([], map[0 := 0], map[0 := None]))
            == ForwardAfterRound()
  {
    ForwardStart();
    ForwardStepTo2();
    ForwardStepTo1();
    RelaxPair(Detour(), LineDistance, Forward, 0, 2, 0, 2, 1, Frontier([], map[0 := 0], map[0 := None]));
  }

  /** Each side starts with its root queued at the straight-line distance 10. */
  lemma InitialState()
    ensures Initial(LineDistance, 0, 2)
            == Search(Frontier([Entry(10, 0, 0)], map[0 := 0], map[0 := None]),
                      Frontier([Entry(10, 0, 2)], map[2 := 0], map[2 := None]), None)
  {
    assert LineDistance(0, 2) == 10 && LineDistance(2, 0) == 10;
  }

  /** Popping node 0 queues node 2 at cost 20 and node 1 at cost 5, and meets nothing yet. */
  lemma ForwardExpansion()
    ensures Expand(Detour(), LineDistance, Forward, 0, 2, Initial(LineDistance, 0, 2).fwd, map[2 := 0], None)
            == (ForwardAfterRound(), None)
  {
    InitialState();
    var f := Frontier([Entry(10, 0, 0)], map[0 := 0], map[0 := None]);
    assert Peek(f.queue) == Entry(10, 0, 0);
    assert f.(queue := f.queue[1..]) == Frontier([], map[0 := 0], map[0 := None]);
    ForwardNeighbors();
    ForwardRelaxations();
  }

  /** Backward: the step 2 <- 0 reaches node 0 at cost 20. */
  lemma BackwardStepTo0()
    ensures Relax(Detour(), LineDistance, Backward, 2, 0, 2, 0, Frontier([], map[2 := 0], map[2 := None]))
            == Frontier([Entry(20, 20, 0)], map[2 := 0, 0 := 20], map[2 := None, 0 := Some(2)])
  {
    var f := Frontier([], map[2 := 0], map[2 := None]);
    BackwardImprovesTo0();
    ImproveEmpty(LineDistance, 0, 2, 0, 20, f);
    assert LineDistance(0, 0) == 0;
  }

  /** Backward: node 0 is new, so the step 2 <- 0 is an improvement at cost 20. */
  lemma BackwardImprovesTo0()
    ensures Relax(Detour(), LineDistance, Backward, 2, 0, 2, 0, Frontier([], map[2 := 0], map[2 := None]))
            == Improve(LineDistance, 0, 2, 0, 20, Frontier([], map[2 := 0], map[2 := None]))
  {
    DetourEdges();
    RelaxCases(Detour(), LineDistance, Backward, 2, 0, 2, 0, Frontier([], map[2 := 0], map[2 := None]), 20);
  }

  /** Backward: the step 2 <- 1 reaches node 1 at cost 5 and queues it ahead of node 0. */
  lemma BackwardStepTo1()
    ensures Valid(Detour(), Backward, 2, Frontier([Entry(20, 20, 0)], map[2 := 0, 0 := 20], map[2 := None, 0 := Some(2)]))
    ensures Relax(Detour(), LineDistance, Backward, 2, 0, 2, 1,
                  Frontier([Entry(20, 20, 0)], map[2 := 0, 0 := 20], map[2 := None, 0 := Some(2)]))
            == BackwardAfterRound()
  {
    BackwardStepTo0();
    DetourEdges();
    assert StepLength(Detour(), Backward, 2, 1) == 5 && LineDistance(1, 0) == 5;
    assert Push([Entry(20, 20, 0)], Entry(10, 5, 1)) == [Entry(10, 5, 1), Entry(20, 20, 0)];
  }

  /** Node 2's predecessors, in edge order. */
  lemma BackwardNeighbors()
    ensures Neighbors(Detour(), Backward, 2) == [0, 1]
  {
    var es := Detour().edges;
    assert es[..1] == [Edge(0, 2, Some(20))] && es[..1][..0] == [];
    assert es[..2] == [Edge(0, 2, Some(20)), Edge(0, 1, Some(5))] && es[..2][..1] == es[..1];
    assert Tails(es[..1], 2) == [0];
    assert Tails(es[..2], 2) == [0];
  }

  /** The backward frontier with its root popped is valid, and node 2 links back to nodes 0 and 1. */
  lemma BackwardStart()
    ensures Valid(Detour(), Backward, 2, Frontier([], map[2 := 0], map[2 := None]))
    ensures Linked(Detour(), Backward, 2, 0) && Linked(Detour(), Backward, 2, 1)
  {
    DetourEdges();
  }

  lemma BackwardRelaxations()
    ensures RelaxAll(Detour(), LineDistance, Backward, 2, 0, 2, [0, 1], Frontier([], map[2 := 0], map[2 := None]))
            == BackwardAfterRound()
  {
    BackwardStart();
    BackwardStepTo0();
    BackwardStepTo1();
    RelaxPair(Detour(), LineDistance, Backward, 2, 0, 2, 0, 1, Frontier([], map[2 := 0], map[2 := None]));
  }

  /** The backward root frontier, before its root is popped. */
  function BackwardRoot(): (f: Frontier)
    ensures Valid(Detour(), Backward, 2, f)
  {
    InitialState();
    assert Inv(Detour(), 0, 2, Initial(LineDistance, 0, 2));
    Initial(LineDistance, 0, 2).bwd
  }

  /** Popping node 2 backward proposes it as meeting node at cost 0 + 20. */
  lemma BackwardMeets()
    ensures Expand(Detour(), LineDistance, Backward, 2, 0, BackwardRoot(), ForwardAfterRound().visited, None).1
            == Some(Meeting(20, 2))
  {
    var other := ForwardAfterRound().visited;
    assert BackwardRoot().queue[0].node == 2 && BackwardRoot().queue[0].cost == 0;
    assert 2 in other && other[2] == 20;
  }

  /** Popping node 2 backward queues nodes 0 and 1. */
  lemma BackwardRelaxes()
    ensures Expand(Detour(), LineDistance, Backward, 2, 0, BackwardRoot(), ForwardAfterRound().visited, None).0
            == BackwardAfterRound()
  {
    var f := BackwardRoot();
    assert Peek(f.queue) == Entry(10, 0, 2);
    assert f.(queue := f.queue[1..]) == Frontier([], map[2 := 0], map[2 := None]);
    BackwardNeighbors();
    BackwardRelaxations();
  }

  /** Popping node 2 backward meets the forward side at cost 0 + 20, and queues nodes 0 and 1. */
  lemma BackwardExpansion()
    ensures Expand(Detour(), LineDistance, Backward, 2, 0, Initial(LineDistance, 0, 2).bwd,
                   ForwardAfterRound().visited, None)
            == (BackwardAfterRound(), Some(Meeting(20, 2)))
  {
    InitialState();
    assert Initial(LineDistance, 0, 2).bwd == BackwardRoot();
    BackwardMeets();
    BackwardRelaxes();
  }

  /** One round: forward pops node 0, backward pops node 2 and meets at cost 20. */
  lemma FirstRound()
    ensures Round(Detour(), LineDistance, 0, 2, Initial(LineDistance, 0, 2))
            == Search(ForwardAfterRound(), BackwardAfterRound(), Some(Meeting(20, 2)))
  {
    ForwardExpansion();
    BackwardExpansion();
    assert Initial(LineDistance, 0, 2).fwd.queue != [];
    assert Initial(LineDistance, 0, 2).bwd.visited == map[2 := 0];
  }

  /** Both frontiers after the round satisfy the frontier invariant. */
  lemma RoundIsValid()
    ensures Valid(Detour(), Forward, 0, ForwardAfterRound()) && Valid(Detour(), Backward, 2, BackwardAfterRound())
  {
    FirstRound();
    assert Inv(Detour(), 0, 2, Initial(LineDistance, 0, 2));
  }

  /** Node 2's forward parent chain is 2, 0. */
  lemma ForwardChainFrom2()
    ensures Chain(ForwardAfterRound().parents, 2, 3) == Some([2, 0])
  {
    var fp := ForwardAfterRound().parents;
    assert 2 in fp && fp[2] == Some(0);
    assert 0 in fp && fp[0] == None;
    assert Chain(fp, 0, 2) == Some([0]);
    assert [2] + [0] == [2, 0];
  }

  lemma ReverseOfPair()
    ensures Reverse([2, 0]) == [0, 2]
  {
    assert [2, 0][1..] == [0];
    assert Reverse([0]) == [0];
  }

  lemma ParentCount()
    ensures |ForwardAfterRound().parents| == 3
  {
    assert ForwardAfterRound().parents.Keys == {0, 1, 2};
  }

  /** Meeting at node 2 rebuilds the route [0, 2]: node 2's forward parent is 0, its backward parent none. */
  lemma ReconstructDirectEdge()
    ensures Valid(Detour(), Forward, 0, ForwardAfterRound()) && Valid(Detour(), Backward, 2, BackwardAfterRound())
    ensures Reconstruct(Detour(), 0, 2, ForwardAfterRound(), BackwardAfterRound(), 2) == Success([0, 2])
  {
    RoundIsValid();
    ParentCount();
    ForwardChainFrom2();
    ReverseOfPair();
    assert BackwardAfterRound().parents[2] == None;
  }

  /** The initial search has not stopped, so one unit of fuel runs the first round. */
  lemma RunsFirstRound()
    ensures !Stopped(Initial(LineDistance, 0, 2))
    ensures Run(Detour(), LineDistance, 0, 2, Initial(LineDistance, 0, 2), 1)
            == Run(Detour(), LineDistance, 0, 2, Round(Detour(), LineDistance, 0, 2, Initial(LineDistance, 0, 2)), 0)
  {
    assert Initial(LineDistance, 0, 2).best == None;
  }

  /** The stopping test holds after the first round, so the loop halts there. */
  lemma HaltsAfterOneRound()
    ensures Outcome(Detour(), LineDistance, 0, 2, 1)
            == Halted(Search(ForwardAfterRound(), BackwardAfterRound(), Some(Meeting(20, 2))))
  {
    RunsFirstRound();
    FirstRound();
    assert StopRule(Search(ForwardAfterRound(), BackwardAfterRound(), Some(Meeting(20, 2))));
  }

  /** The direct edge costs 20; the detour is a route too and costs 10. */
  lemma DetourCosts()
    ensures PathCost(Detour(), [0, 2]) == 20
    ensures IsRoute(Detour(), 0, 2, [0, 1, 2]) && PathCost(Detour(), [0, 1, 2]) == 10
  {
    DetourEdges();
    assert [0, 2][1..] == [2];
    assert [0, 1, 2][1..] == [1, 2];
    assert [1, 2][1..] == [2];
  }

  /**
   * With a consistent heuristic the stopping test `best_cost <= min_forward + min_backward`
   * fires after one round, before the cheaper meeting at node 1 is seen: the search returns
   * the direct edge of cost 20 although the detour costs 10.
   */
  lemma StopRuleMissesShorterRoute()
    ensures BidirectionalAStar(Detour(), LineDistance, 0, 2, 1) == Success([0, 2])
    ensures PathCost(Detour(), [0, 2]) == 20
    ensures IsRoute(Detour(), 0, 2, [0, 1, 2]) && PathCost(Detour(), [0, 1, 2]) == 10
  {
    HaltsAfterOneRound();
    ReconstructDirectEdge();
    DetourCosts();
  }
}

=== FILE: wrappers.dfy ===
/** Failure-carrying datatypes shared by every module of the model. */
module Wrappers {

  /** A value that may be absent: Python's `None` or a missing dictionary entry. */
  datatype Option<+T> = None | Some(value: T) {

    /** The wrapped value, or `default` when absent (Python's `d.get(k, default)`). */
    function GetOr(default: T): T {
      match this
      case Some(v) => v
      case None => default
    }
  }

  /** The outcome of a call that either returns a value or raises an exception. */
  datatype Result<+R, +E> = Success(value: R) | Failure(error: E)
}
